=== FILE: README.md ===
# Chess position model and pseudo-legal move generator

A Dafny model of the core of `chess.py`:
- the two sides (`Color`) and squares (`Position`);
- pieces (`Piece`): the move generator `correct_moves`, the value table `get_value`, the opening squares `get_start_position`, and the unfinished `correct_captures`;
- the board (`Board`): construction from a piece list or the opening layout (`__init__`, `new_board`), construction from the placement field of Forsyth-Edwards Notation (`from_FEN`), the square index `get_piece_arr`, the text rendering `get_str_arr`, and the unfinished `move_piece`.

Everything is modelled as immutable values and pure functions.
- The grid is `seq<seq<Option<Piece>>>`, eight rows of eight, indexed `[row][col]`.
- A piece name is one of the six kinds or `Other(text)`. `Other` carries any other string; its type excludes the six spellings `chess.py` recognises (`"pawn"`, `"rook"` and so on), so it never stands for a recognised kind.
- Python exceptions become `Err` values of a `Result`. They are named by exception class: `ValueError`, `KeyError`, `IndexError`, `TypeError` and `NotImplementedError`.

Modules follow the structure of `chess.py`:
- `ChessTypes` (`types.dfy`): colours, names, squares, pieces, grids and `Result`.
- `Tables` (`tables.dfy`): `get_value` and `get_start_position`.
- `Moves` (`moves.dfy`): `correct_moves` and `correct_captures`.
- `Boards` (`board.dfy`): the grid index, the rendering, the opening layout, `__init__` and `move_piece`.
- `Fen` (`fen.dfy`): `from_FEN`.
- `Opening` (`opening.dfy`): the standard opening read both ways, through `new_board` and through `from_FEN`.

Each generator is paired with an independent reference definition of what the piece may reach:
- `PawnTarget`, `SlideTarget`/`SlidesTo`, `KnightJump`, `KingStep`, and `Reaches` for the whole dispatch.
- An all-inputs lemma proves that the squares returned are exactly those.

The FEN reader is paired with:
- the round trips of `/`-splitting;
- digit expansion against compression;
- a reference rendering `CellText` of each expanded cell.

Both ways of building the opening are compared square by square with `OpeningAt`, an independent description of the standard opening.

The code is followed where it departs from the usual rules of chess or from Forsyth-Edwards Notation (FEN), which `from_FEN`'s docstring names:
- **A queen moves like a rook.** The `bishop or queen` test is an `elif` behind the `rook or queen` test (chess.py:70, chess.py:100), so a queen gets no diagonal squares. In chess a queen also moves diagonally.
- **Pawns and kings take shortcuts.**
  - The pawn double step checks only its landing square.
  - The king branch never looks at the grid.
  - An unrecognised name returns no squares.
- **`move_piece` mutates the piece before raising.** It overwrites the piece's position and then raises `NotImplementedError`, without rebuilding the grid (chess.py:283-285).
- **FEN digits `0` and `9` are accepted.**
  - Digit `0` is popped and nothing is inserted. The loop index then steps over the following character, which stays a raw symbol even if it is a digit. This is chess.py:265-269.
  - Digit `9` expands to nine empty cells, of which at most eight are read.
  - Neither raises, although FEN allows only the digits 1 to 8.
- **Rank count is not checked up front.**
  - A placement with fewer than eight ranks is read rank by rank, so a short rank or an unknown symbol in an earlier rank raises first. If every present rank is full and known, as in `8/8/8/8/8/8/8`, reading reaches the missing rank and raises `IndexError` (chess.py:271-273).
  - An eight-rank placement is read whatever it holds. `rnbqkbnr/pppppppp/8/8/8/8/8/PPPPPPPP` parses without error into 24 pieces: White's pawns land on row 0 and there is no White back rank, so it does not match `new_board`. The standard opening is `rnbqkbnr/pppppppp/8/8/8/8/PPPPPPPP/RNBQKBNR`.
- **Rendering has no checkerboard.** Both arms of the `(i+j) % 2` expression in `get_str_arr` give two spaces, so every empty square renders as `"  "`.

## Model

| member | source | states |
|---|---|---|
| Tables.GetValue | chess.py:176-191 | Fails with `ValueError("Invalid piece name")` exactly for an unrecognised name. Otherwise the value lies in 0..9 and is 0 exactly for the king. |
| Tables.StartPositions | chess.py:194-223 | Fails with `ValueError("Invalid color")` exactly when the colour is neither side. With a valid colour, returns `None` exactly for an unrecognised name. Otherwise returns one on-board square per start column of the kind, in order, on the pawn rank for pawns and on the home rank for the rest. |
| Tables.HomeColumnsDisjoint | chess.py:196-215 | Two different non-pawn kinds have no start column in common. |
| Tables.StartPositionsMirror | chess.py:196-221 | Black's start squares are White's with every row `r` replaced by `7 - r`. |
| Moves.Ray | chess.py:71-90 | Each square of one walk lies the right number of steps out along the direction and is empty. The walk stops at the edge or before an occupied square. |
| Moves.OffsetLeavesBoard | chess.py:128-136 | From an on-board square, eight or more steps in any direction leave the board, so the `range(1, 9)` loop's last step never adds a square. |
| Moves.RayIsRun | chess.py:71-136 | A ray is a contiguous run of empty squares at distances 1, 2, …, n. The square at distance n+1 is off the board or occupied, and is not returned. |
| Moves.RayClear | chess.py:71-90 | Every square of a walk up to its length is empty. |
| Moves.RayStops | chess.py:71-136 | The square one past the end of a walk is off the board or occupied. |
| Moves.RayIsSlide | chess.py:101-136 | A square is on the walk in a direction exactly when some distance k ≥ 1 reaches it with every square up to it empty. |
| Moves.PawnMoves | chess.py:54-68 | Returns exactly the empty squares one step forward in the pawn's column, plus two steps forward when the pawn stands on its start rank, whatever stands in between. |
| Moves.Rays | chess.py:70-90 | Every square of the concatenated rays is on the board, empty, and not the piece's own square. |
| Moves.RookMoves | chess.py:70-90 | Every returned square is on the board and differs from the rook's square. |
| Moves.BishopMoves | chess.py:100-136 | Every returned square is on the board and differs from the bishop's square. |
| Moves.RaysAreSlides | chess.py:70-136 | A square is among the rays of a direction list exactly when it is a slide target along one of those directions. |
| Moves.KnightCols | chess.py:94-98 | The inner loop returns exactly the empty on-board squares in the given row offset, with column offset at least `j` and offsets summing to 3 in absolute value. |
| Moves.KnightRows | chess.py:93-98 | The outer loop returns exactly the empty on-board knight jumps with row offset at least `i`. |
| Moves.KnightMoves | chess.py:92-98 | Returns exactly the empty on-board squares with \|dr\| + \|dc\| = 3 and neither offset above 2. |
| Moves.KingMoves | chess.py:137-161 | Returns exactly the on-board neighbours of the square, occupied or not. |
| Moves.CorrectMoves | chess.py:48-167 | For a piece on the board, every returned square is on the board and is not the piece's own square. |
| Moves.ElifChain | chess.py:54-136 | The if/elif branches return only empty squares other than the piece's own. |
| Moves.CorrectMovesMeaning | chess.py:48-167 | A square is returned exactly when the piece's movement rule reaches it: pawn steps, orthogonal slides for rook and queen, knight jumps onto empty squares, diagonal slides for the bishop, king steps, and nothing for an unknown name. |
| Moves.PawnMeaning | chess.py:54-68 | A pawn's result holds exactly its pawn targets. |
| Moves.SlideMeaning | chess.py:70-136 | A rook's or queen's result holds exactly the orthogonal slide targets; a bishop's exactly the diagonal ones. |
| Moves.KnightMeaning | chess.py:92-98 | A knight's result is the knight loop's result. |
| Moves.KingMeaning | chess.py:137-161 | A king's result holds exactly the on-board neighbours of its square. |
| Moves.QueenMovesLikeRook | chess.py:70-100 | A queen's result equals a rook's result from the same square on the same grid. |
| Moves.QueenStaysOrthogonal | chess.py:70-100 | Every square a queen gets shares its row or its column. |
| Moves.RaysOnLines | chess.py:71-90 | Walks along orthogonal directions stay in the start square's row or column. |
| Moves.RaysOnDiagonals | chess.py:101-136 | Walks along diagonal directions stay on the start square's diagonals. |
| Moves.BishopStaysDiagonal | chess.py:100-136 | Every square a bishop gets is on one of its diagonals. |
| Moves.UnknownNameHasNoMoves | chess.py:54-137 | An unrecognised name falls through every branch and gets no squares. |
| Moves.NoCaptures | chess.py:54-136 | Every piece except the king gets only empty squares, so no captures. |
| Moves.KingIgnoresOccupancy | chess.py:137-161 | A king's result is the same on any two grids. |
| Moves.PreviousGridUnread | chess.py:48-167 | The previous-turn grid never changes the result. |
| Moves.KingMoveCount | chess.py:137-161 | A king gets (neighbouring rows) × (neighbouring columns) − 1 squares: 8 in the middle, 5 on an edge, 3 in a corner, even with occupied neighbours. |
| Moves.KingMovesLength | chess.py:138-161 | The eight guarded appends add one square per on-board neighbour. |
| Moves.KnightColsOnEmpty | chess.py:93-98 | On an empty grid, a knight two squares from every edge gets two squares from each nonzero row offset and none from offset 0. |
| Moves.KnightRowsOnEmpty | chess.py:93-98 | On an empty grid, the knight loop from a square two away from every edge yields 8 squares. |
| Moves.KnightInteriorCount | chess.py:92-98 | On an empty grid, a knight on rows and columns 2..5 gets 8 squares. |
| Moves.PawnDoubleStepSkipsMiddle | chess.py:55-68 | A pawn on its start rank, blocked directly ahead but with an empty square two ahead, gets exactly that square. |
| Moves.CorrectCaptures | chess.py:169-173 | Fails with `NotImplementedError` for every piece and grid. It never gives a list, so the failure is not mistaken for "no captures". |
| Boards.PieceArrIndex | chess.py:287-294 | A square of the derived grid is empty exactly when no piece stands on it. Otherwise it holds the last piece in list order standing on it. |
| Boards.PieceArrStepEmpty | chess.py:292-293 | Writing one more piece keeps "a square is empty exactly when no listed piece stands on it". |
| Boards.PieceArrStepLast | chess.py:292-293 | Writing one more piece keeps "an occupied square holds the last listed piece standing on it". |
| Boards.PieceArrShowsEach | chess.py:287-294 | With no two pieces on one square, every piece shows on its own square. |
| Boards.NameLetter | chess.py:303-304 | Fails exactly for an unrecognised name, and then with a `KeyError` on that name. |
| Boards.Code | chess.py:303-304 | A piece's code fails exactly for an unrecognised name; otherwise it is two characters. |
| Boards.StrArr | chess.py:296-305 | Succeeds exactly when every name is recognised. It is then an 8×8 text grid whose display square `[7 - r][c]` renders what the derived grid holds at `(r, c)`: two spaces when empty, the piece's code otherwise. |
| Boards.StrArrAt | chess.py:296-305 | Display square `[i][j]` of a successful rendering is the text of grid square `(7 - i, j)`. |
| Boards.StrArrError | chess.py:300-304 | With an unknown name, rendering fails with a `KeyError` on the first unknown name in list order. |
| Boards.WrittenGrid | chess.py:302-304 | Writing one more piece into the grid and its code at the mirrored display square keeps every display square rendering its grid square. |
| Boards.PairPiecesShape | chess.py:246-249 | A recognised (name, colour) pair yields one piece per start column, valued by the table, on the right rank, with its first move pending. |
| Boards.SideLayout | chess.py:240-249 | One side's six pairs yield 16 opening pieces on pairwise distinct squares. |
| Boards.PiecesForSetup | chess.py:244-249 | Recognised pairs of one colour yield only opening pieces of that colour, each named by one of the pairs. |
| Boards.PiecesForDistinct | chess.py:244-249 | Recognised pairs of one colour with pairwise different names yield pieces on pairwise distinct squares. |
| Boards.PiecesForCount | chess.py:244-249 | Recognised pairs yield exactly as many pieces as their kinds have start columns in total. |
| Boards.SideCount | chess.py:240-249 | One side's six pairs yield 16 pieces. |
| Boards.PairSetup | chess.py:246-249 | A recognised pair yields only opening pieces of its colour and name. |
| Boards.SetupSquaresDiffer | chess.py:196-221 | Two opening pieces of one side with different names never share a square. |
| Boards.SidesApart | chess.py:196-221 | No White opening piece shares a square with a Black one. |
| Boards.PiecesForCons | chess.py:244-249 | The outer loop succeeds exactly when the first pair and the rest do, and then yields the first pair's pieces followed by the rest's. |
| Boards.FlattenAppend | chess.py:244-249 | Concatenating two successful result lists concatenates their pieces. |
| Boards.AppendDistinct | chess.py:244-249 | Two square-disjoint lists with distinct squares concatenate to a list with distinct squares. |
| Boards.PiecesForAppend | chess.py:244-249 | Building the pieces for two pair lists in sequence gives the concatenation of their pieces. |
| Boards.NewBoardLayout | chess.py:236-252 | The opening has 32 pieces: the first 16 White, the last 16 Black, each valued by `get_value`, on its side's home or pawn rank, all on pairwise distinct on-board squares. |
| Boards.MakeBoard | chess.py:227-233 | A board built from a piece list keeps that list; its grid is the list indexed by square and its snapshot equals the grid. |
| Boards.InitBoard | chess.py:227-233 | A given piece list is kept as is. With none, the pieces are exactly those `new_board` builds. Either way the grid and snapshot agree with the pieces. |
| Boards.DefaultBoard | chess.py:227-252 | A default board holds the pieces of `new_board`: 32 of them, each shown on its own square of the grid. |
| Boards.MovePiece | chess.py:279-285 | Always fails with `NotImplementedError`. Afterwards the moved piece carries the new position, every other piece is unchanged, and the grid and snapshot are untouched. |
| Boards.MoveLeavesGridStale | chess.py:279-285 | With pieces on distinct squares, a real relocation leaves the grid out of step with the piece list. |
| Fen.Split | chess.py:259 | Splitting gives at least one part, and no part contains the separator. |
| Fen.JoinSplit | chess.py:259 | Joining the parts back with the separator gives the original string. |
| Fen.SplitJoin | chess.py:259 | Splitting a join of separator-free parts gives back the parts. |
| Fen.ExpandCompress | chess.py:262-270 | Expanding the digit-compressed text of any rank without digit symbols gives the rank back. |
| Fen.SymbolStep | chess.py:262-270 | A non-digit symbol in front of a rank that round-trips keeps the round trip. |
| Fen.BlankStep | chess.py:262-270 | A run of blanks in front of a rank that round-trips keeps the round trip. |
| Fen.ExpandDigit | chess.py:265-268 | A digit 1 to 9 in front of a text expands to that many empty cells followed by the rest's expansion. |
| Fen.FenPiece | chess.py:257-258 | Every symbol in the table names one of the six kinds. |
| Fen.SymbolPiece | chess.py:274-275 | The piece for a symbol at rank `i`, column `j` stands on row `7 - i`, column `j`, with the table's kind and side. |
| Fen.RankPieces | chess.py:271-275 | Reading one rank succeeds exactly when cells `j..7` exist and are blank or known symbols. A failure on a full-length rank is a `KeyError`. Each piece comes from a symbol cell of its column, and the columns strictly increase. |
| Fen.BoardRows | chess.py:271-275 | Reading ranks `i..7` succeeds exactly when they exist, hold at least 8 cells, and all of their first 8 cells are blank or known. With all cells present, failure is a `KeyError`. Every piece comes from a symbol cell, and no two share a square. |
| Fen.RowsStep | chess.py:271-275 | Ranks `i..7` are all known, or all of length at least 8, exactly when rank `i` is and ranks `i+1..7` are. |
| Fen.BoardRowsStep | chess.py:271-275 | Prepending one rank's pieces keeps squares distinct and every piece tied to its cell. |
| Fen.FromFen | chess.py:255-277 | A successful parse gives a consistent board: pieces on the board, grid equal to the pieces indexed by square, snapshot equal to the grid. |
| Fen.FromFenSucceeds | chess.py:259-277 | Parsing succeeds exactly when the first 8 ranks expand to at least 8 cells each and every symbol among those 8×8 cells is known. |
| Fen.UnknownSymbolRaises | chess.py:271-275 | With all 8×8 cells present, an unknown symbol among them is a `KeyError`. |
| Fen.RankPiecesComplete | chess.py:272-275 | Every symbol among cells `j..7` of a rank yields a piece on its square. |
| Fen.RankPiecesStep | chess.py:272-275 | One cell of a successful rank reading: a blank adds nothing, a symbol is known and adds its piece in front. |
| Fen.BoardRowsComplete | chess.py:271-275 | Every symbol among the 8×8 cells of ranks `i..7` yields a piece on its square. |
| Fen.MissingRankRaises | chess.py:271-273 | With fewer than eight ranks, all full and known from rank `i` on, reading raises `IndexError`. |
| Fen.FewRanksRaise | chess.py:259-273 | A placement of fewer than eight ranks, each expanding to at least eight blank or known cells, raises `IndexError`. |
| Fen.SymbolCode | chess.py:257-258 | A symbol's piece renders as `W` for upper case or `B` for lower case, followed by the symbol in upper case. |
| Fen.BlankCellUnoccupied | chess.py:273 | No parsed piece stands on a square whose cell is blank. |
| Fen.SymCellOccupied | chess.py:271-275 | A symbol cell of a parsed placement has a piece on its square. |
| Fen.OccupiedShowsSymbol | chess.py:271-294 | An occupied square of a parsed placement holds the piece of its cell's symbol in the grid. |
| Fen.UnoccupiedEmpty | chess.py:287-294 | A square no piece stands on is empty in the grid. |
| Fen.RenderedCell | chess.py:296-305 | One display square of a parsed board renders its expanded cell. |
| Fen.ParsedCell | chess.py:255-305 | The rendering of a parsed placement succeeds, and its square `[i][j]` is the text of expanded cell `(i, j)`. |
| Fen.ParsedPiecesFit | chess.py:271-275 | Parsed pieces stand on the board and carry recognised names. |
| Fen.ParsedRenders | chess.py:255-305 | The rendering of parsed pieces succeeds and shows every expanded cell at its display position. |
| Fen.FromFenRenders | chess.py:255-305 | For a parsed board, `get_str_arr()[i][j]` is two spaces when expanded cell `(i, j)` is empty. Otherwise it is the side letter followed by the kind letter. |
| Opening.GridsEqual | chess.py:287-294 | Two 8x8 grids that agree on every on-board square are the same grid. |
| Opening.PiecesForHas | chess.py:244-248 | For recognised names, every start square of every listed pair yields a piece of that kind and colour, valued by `get_value`, with its first move pending. |
| Opening.SideIndex | chess.py:239-241 | Each recognised kind appears in a side's pair list, paired with that side's colour. |
| Opening.OpeningFromPair | chess.py:236-248 | Each occupied square of the opening is a start square of its kind and colour. |
| Opening.SideHas | chess.py:236-248 | Each occupied square's opening piece is among the pieces `new_board` makes for its side. |
| Opening.NewBoardHas | chess.py:236-252 | Each occupied square's opening piece is among `new_board`'s pieces. |
| Opening.SetupOffMiddle | chess.py:236-252 | No opening-layout piece stands on rows 2 to 5. |
| Opening.NewBoardMiddleEmpty | chess.py:236-252 | No piece of `new_board` stands on an empty square of the opening. |
| Opening.GridShowsOpening | chess.py:287-294 | A grid of pieces on distinct squares shows the opening piece on a square when that piece is in the list, and an empty square when no piece stands there. |
| Opening.NewBoardSquare | chess.py:226-252 | Every square of the default board's grid holds the opening: each side's home rank in the order rook, knight, bishop, queen, king, bishop, knight, rook, the pawns in front of it, and nothing on rows 2 to 5. |
| Opening.JoinAppend | chess.py:259 | Joining two lists of ranks with `/` is joining each and putting a `/` between them. |
| Opening.StandardJoin | chess.py:259 | The eight standard ranks joined with `/` spell `rnbqkbnr/pppppppp/8/8/8/8/PPPPPPPP/RNBQKBNR`. |
| Opening.StandardSplit | chess.py:259 | Splitting `rnbqkbnr/pppppppp/8/8/8/8/PPPPPPPP/RNBQKBNR` on `/` gives its eight ranks. |
| Opening.ExpandLetters | chess.py:262-270 | A rank without digits expands to one symbol cell per character, in order. |
| Opening.EightExpands | chess.py:264-267 | The rank `8` expands to eight empty cells. |
| Opening.StandardRank | chess.py:259-270 | Each rank of the standard placement expands to eight cells: its letters on the outer ranks, empty cells on the four middle ranks. |
| Opening.StandardExpanded | chess.py:259-270 | The standard placement expands to eight ranks of eight cells with letters on the outer ranks and empty cells in the middle. |
| Opening.StandardSymbol | chess.py:257-258 | Each letter of the standard placement's outer ranks is a known symbol, and its piece is the opening piece of its square. |
| Opening.StandardParses | chess.py:255-277 | Reading the standard placement succeeds. |
| Opening.ParsedSquare | chess.py:271-294 | A square of a parsed placement is empty for an empty cell and holds the cell's symbol piece otherwise. |
| Opening.StandardSquare | chess.py:255-294 | Every square of the grid of pieces read from the standard placement holds the opening. |
| Opening.FenSquare | chess.py:255-294 | Every square of the board `from_FEN` builds from the standard placement holds the opening. |
| Opening.StandardOpening | chess.py:226-294 | `from_FEN` on `rnbqkbnr/pppppppp/8/8/8/8/PPPPPPPP/RNBQKBNR` succeeds and its grid equals the grid of `Board()`, which uses `new_board`. The piece lists are not compared: `from_FEN` lists pieces rank by rank and `new_board` kind by kind. |

## Left out

- The GUI program `main.py` and `chess.py`'s `main()` are window and console I/O. `Piece.__str__`, `Piece.__repr__` and `Board.__str__` are debug formatting. The `print` of the piece count in `new_board` is console output.
- The `Move` class is carried as a datatype but no operation uses it.
- `copy.deepcopy` of the grid becomes an ordinary value copy: values are immutable and nothing reads the snapshot.
- Only the ASCII digits are treated as digits. Python's `str.isdigit` also accepts other Unicode characters, with two outcomes the model does not reproduce:
  - a Unicode decimal digit such as `'٣'` is read by `int` and expands to that many empty cells, where the model reads a symbol and raises `KeyError`;
  - a digit that is not decimal, such as `'²'`, makes `int` raise `ValueError`. This happens in the expansion loop (chess.py:262-270), which runs over every rank, not just the first eight.
- Boards.InitBoard: requires every piece of a given list to be on the board. Python would index off-board rows and columns negatively or raise `IndexError`.
- Boards.MakeBoard: requires every piece of a given list to be on the board. Python would index off-board rows and columns negatively or raise `IndexError`.
- Boards.PieceArrIndex: requires every piece of a given list to be on the board. Python would index off-board rows and columns negatively or raise `IndexError`.
- Boards.StrArr: requires every piece of a given list to be on the board. Python would index off-board rows and columns negatively or raise `IndexError`.
- Moves.CorrectMoves: requires the piece to stand on the board. Off the board, the pawn, rook, queen and bishop branches can index negatively or raise `IndexError`. The king branch reads no square and returns off-board squares. The knight branch bounds-checks its reads and returns only on-board squares. None of these off-board cases is modelled.
- Boards.MovePiece: the piece is named by its index in the list, not passed as an object. The grid keeps the piece as it was. In Python the grid and the list share the same mutated object, so the piece in the grid also shows the new position while staying on its old square. A move on a piece not in the list is not modelled.
- `Piece` takes all five fields explicitly; the Python defaults (`value=None` and so on) are not modelled.

=== FILE: board.dfy ===
/** `Board`: the piece list, the grid derived from it, the text
    rendering, the opening layout and the unfinished `move_piece`. */
module Boards {
  import opened ChessTypes
  import Tables
  import Moves

  /* ---------------------------------------------------------------- */
  /* The grid index                                                    */
  /* ---------------------------------------------------------------- */

  /** Every piece stands on the board. */
  predicate InRange(ps: seq<Piece>) {
    forall i :: 0 <= i < |ps| ==> InBounds(ps[i].position)
  }

  /** No two pieces share a square. */
  predicate DistinctSquares(ps: seq<Piece>) {
    forall i, j :: 0 <= i < j < |ps| ==> ps[i].position != ps[j].position
  }

  /** Piece `i` is the last one in list order standing on `q`. */
  predicate LastAt(ps: seq<Piece>, i: int, q: Position) {
    0 <= i < |ps| && ps[i].position == q &&
    forall j :: i < j < |ps| ==> ps[j].position != q
  }

  /** `Board.get_piece_arr`: each piece is written to its square in list
      order. */
  function PieceArr(ps: seq<Piece>): (g: Grid)
    requires InRange(ps)
    ensures IsGrid(g)
  {
    if |ps| == 0 then EmptyGrid()
    else
      var last := ps[|ps| - 1];
      Place(PieceArr(ps[..|ps| - 1]), last.position, Some(last))
  }

  /** The derived grid is the piece list indexed by square: a square is
      empty exactly when no piece stands on it, and otherwise shows the
      last piece in list order standing on it. */
  lemma {:induction false} PieceArrIndex(ps: seq<Piece>)
    requires InRange(ps)
    ensures forall q :: InBounds(q) ==>
      (At(PieceArr(ps), q).None? <==> forall i :: 0 <= i < |ps| ==> ps[i].position != q)
    ensures forall q :: InBounds(q) && At(PieceArr(ps), q).Some? ==>
      exists i :: LastAt(ps, i, q) && ps[i] == At(PieceArr(ps), q).value
  {
    if |ps| > 0 {
      PieceArrIndex(ps[..|ps| - 1]);
      PieceArrStepEmpty(ps, PieceArr(ps[..|ps| - 1]));
      PieceArrStepLast(ps, PieceArr(ps[..|ps| - 1]));
    }
  }

  /** A square is vacant exactly when no piece in the list stands on it. */
  ghost predicate EmptyMatches(g: Grid, ps: seq<Piece>)
    requires IsGrid(g)
  {
    forall q :: InBounds(q) ==>
      (At(g, q).None? <==> forall i :: 0 <= i < |ps| ==> ps[i].position != q)
  }

  /** An occupied square shows the last piece in the list standing on it. */
  ghost predicate ShowsLast(g: Grid, ps: seq<Piece>)
    requires IsGrid(g)
  {
    forall q :: InBounds(q) && At(g, q).Some? ==>
      exists i :: LastAt(ps, i, q) && ps[i] == At(g, q).value
  }

  /** The inductive step behind PieceArr's contract, vacant squares. */
  lemma PieceArrStepEmpty(ps: seq<Piece>, g: Grid)
    requires InRange(ps) && |ps| > 0 && IsGrid(g)
    requires EmptyMatches(g, ps[..|ps| - 1])
    ensures EmptyMatches(Place(g, ps[|ps| - 1].position, Some(ps[|ps| - 1])), ps)
  {
    var n := |ps| - 1;
    var front := ps[..n];
    var g' := Place(g, ps[n].position, Some(ps[n]));
    forall q | InBounds(q)
      ensures At(g', q).None? <==> forall i :: 0 <= i < |ps| ==> ps[i].position != q
    {
      if q != ps[n].position {
        assert At(g', q) == At(g, q);
        if !(forall i :: 0 <= i < |ps| ==> ps[i].position != q) {
          var i :| 0 <= i < |ps| && ps[i].position == q;
          assert front[i].position == q;
        }
      }
    }
  }

  /** The inductive step behind PieceArr's contract, occupied squares. */
  lemma PieceArrStepLast(ps: seq<Piece>, g: Grid)
    requires InRange(ps) && |ps| > 0 && IsGrid(g)
    requires ShowsLast(g, ps[..|ps| - 1])
    ensures ShowsLast(Place(g, ps[|ps| - 1].position, Some(ps[|ps| - 1])), ps)
  {
    var n := |ps| - 1;
    var front := ps[..n];
    var g' := Place(g, ps[n].position, Some(ps[n]));
    forall q | InBounds(q) && At(g', q).Some?
      ensures exists i :: LastAt(ps, i, q) && ps[i] == At(g', q).value
    {
      if q == ps[n].position {
        assert LastAt(ps, n, q);
      } else {
        assert At(g', q) == At(g, q);
        var i :| LastAt(front, i, q) && front[i] == At(g, q).value;
        assert LastAt(ps, i, q);
      }
    }
  }

  /** With no two pieces on one square, every piece shows on its own
      square. */
  lemma PieceArrShowsEach(ps: seq<Piece>)
    requires InRange(ps) && DistinctSquares(ps)
    ensures forall i :: 0 <= i < |ps| ==> At(PieceArr(ps), ps[i].position) == Some(ps[i])
  {
    var g := PieceArr(ps);
    PieceArrIndex(ps);
    forall i | 0 <= i < |ps| ensures At(g, ps[i].position) == Some(ps[i]) {
      var q := ps[i].position;
      var j :| LastAt(ps, j, q) && ps[j] == At(g, q).value;
    }
  }

  /* ---------------------------------------------------------------- */
  /* Text rendering                                                    */
  /* ---------------------------------------------------------------- */

  /** The text of an empty square. */
  const EmptyCode: string := "  "

  function ColorLetter(c: Color): string {
    if c == Black then "B" else "W"
  }

  /** The kind letter; any other name is a KeyError on that name. */
  function NameLetter(n: Name): (r: Result<string>)
    ensures r.Err? <==> n.Other?
    ensures r.Err? ==> r.error == KeyError(n.text)
  {
    match n
    case Pawn => Ok("P")
    case Rook => Ok("R")
    case Knight => Ok("N")
    case Bishop => Ok("B")
    case Queen => Ok("Q")
    case King => Ok("K")
    case Other(text) => Err(KeyError(text))
  }

  /** The two-letter code of a piece. */
  function Code(p: Piece): (r: Result<string>)
    ensures r.Err? <==> p.name.Other?
    ensures r.Ok? ==> |r.value| == 2
  {
    var letter :- NameLetter(p.name);
    Ok(ColorLetter(p.color) + letter)
  }

  /** What a grid square renders as, given only the grid. The `"??"`
      arm is never shown: under `KnownNames` no grid square holds an
      unknown name, and otherwise `StrArr` fails with a KeyError. */
  function SquareText(v: Option<Piece>): string {
    match v
    case None => EmptyCode
    case Some(p) => if p.name.Other? then "??" else Code(p).value
  }

  predicate KnownNames(ps: seq<Piece>) {
    forall i :: 0 <= i < |ps| ==> !ps[i].name.Other?
  }

  /** An 8x8 grid of strings. */
  predicate IsTextGrid(a: seq<seq<string>>) {
    |a| == 8 && forall i :: 0 <= i < 8 ==> |a[i]| == 8
  }

  /** The text shown for square `q`: display rows run from row 7 down. */
  function TextAt(a: seq<seq<string>>, q: Position): string
    requires IsTextGrid(a) && InBounds(q)
  {
    a[7 - q.row][q.col]
  }

  /** `Board.get_str_arr`: start from all-blank text and write each
      piece's code at display row `7 - row`, in list order. It fails
      with a KeyError as soon as a piece has an unknown name. When it
      succeeds, display square `[7 - r][c]` renders exactly what the
      derived grid holds at `(r, c)`. */
  function StrArr(ps: seq<Piece>): (r: Result<seq<seq<string>>>)
    requires InRange(ps)
    ensures r.Ok? <==> KnownNames(ps)
    ensures r.Ok? ==> IsTextGrid(r.value)
    ensures r.Ok? ==> forall q :: InBounds(q) ==>
      TextAt(r.value, q) == SquareText(At(PieceArr(ps), q))
  {
    if |ps| == 0 then Ok(seq(8, i => seq(8, j => EmptyCode)))
    else
      var front := ps[..|ps| - 1];
      var last := ps[|ps| - 1];
      KnownNamesLast(ps);
      match StrArr(front)
      case Err(e) => Err(e)
      case Ok(a) =>
        match Code(last)
        case Err(e) => Err(e)
        case Ok(code) =>
          WrittenGrid(PieceArr(front), a, last, code);
          Ok(WriteText(a, last.position, code))
  }

  lemma KnownNamesLast(ps: seq<Piece>)
    requires |ps| > 0
    ensures KnownNames(ps) <==> KnownNames(ps[..|ps| - 1]) && !ps[|ps| - 1].name.Other?
  {
    assert forall i :: 0 <= i < |ps| - 1 ==> ps[..|ps| - 1][i] == ps[i];
  }

  /** With an unknown name, rendering fails with a KeyError on the first
      such name in list order. */
  lemma {:induction false} StrArrError(ps: seq<Piece>, k: int)
    requires InRange(ps) && 0 <= k < |ps| && ps[k].name.Other? && KnownNames(ps[..k])
    ensures StrArr(ps) == Err(KeyError(ps[k].name.text))
  {
    var front := ps[..|ps| - 1];
    if k < |ps| - 1 {
      assert front[..k] == ps[..k];
      StrArrError(front, k);
    } else {
      assert front == ps[..k];
    }
  }

  /** Display square `[i][j]` of a successful rendering shows grid
      square `(7 - i, j)`. */
  lemma StrArrAt(ps: seq<Piece>, i: int, j: int)
    requires InRange(ps) && StrArr(ps).Ok? && 0 <= i < 8 && 0 <= j < 8
    ensures StrArr(ps).value[i][j] == SquareText(At(PieceArr(ps), Position(7 - i, j)))
  {
    var a := StrArr(ps).value;
    assert TextAt(a, Position(7 - i, j)) == a[i][j];
  }

  /** Text grid `a` with `code` written at display square `[7 - row][col]`. */
  function WriteText(a: seq<seq<string>>, q: Position, code: string): (a': seq<seq<string>>)
    requires IsTextGrid(a) && InBounds(q)
    ensures IsTextGrid(a')
  {
    a[7 - q.row := a[7 - q.row][q.col := code]]
  }

  /** Writing a piece into the grid and its code into the text grid keeps
      the two in step. */
  lemma WrittenGrid(g: Grid, a: seq<seq<string>>, last: Piece, code: string)
    requires IsGrid(g) && IsTextGrid(a) && InBounds(last.position)
    requires forall q :: InBounds(q) ==> TextAt(a, q) == SquareText(At(g, q))
    requires Code(last) == Ok(code)
    ensures forall x :: InBounds(x) ==>
      TextAt(WriteText(a, last.position, code), x) == SquareText(At(Place(g, last.position, Some(last)), x))
  {
    forall x | InBounds(x)
      ensures TextAt(WriteText(a, last.position, code), x) == SquareText(At(Place(g, last.position, Some(last)), x))
    {
      WrittenSquare(g, a, last, code, x);
    }
  }

  /** One square after writing `code` for `last` into text grid `a` and
      `last` into grid `g`: the written square shows the code, every other
      square keeps its text. */
  lemma WrittenSquare(g: Grid, a: seq<seq<string>>, last: Piece, code: string, x: Position)
    requires IsGrid(g) && IsTextGrid(a) && InBounds(last.position) && InBounds(x)
    requires Code(last) == Ok(code)
    requires TextAt(a, x) == SquareText(At(g, x))
    ensures TextAt(WriteText(a, last.position, code), x) == SquareText(At(Place(g, last.position, Some(last)), x))
  {
    var q := last.position;
    var a' := WriteText(a, q, code);
    if x.row != q.row {
      assert a'[7 - x.row] == a[7 - x.row];
      assert At(Place(g, q, Some(last)), x) == At(g, x);
    } else if x.col != q.col {
      assert a'[7 - x.row] == a[7 - x.row][q.col := code];
      assert At(Place(g, q, Some(last)), x) == At(g, x);
    } else {
      assert x == q;
    }
  }

  /* ---------------------------------------------------------------- */
  /* The opening layout                                                */
  /* ---------------------------------------------------------------- */

  /** The (name, colour) pairs in the order `new_board` visits them. */
  function SidePairs(c: Color): seq<(Name, Color)> {
    [(Rook, c), (Bishop, c), (Pawn, c), (King, c), (Queen, c), (Knight, c)]
  }

  function SetupPairs(): seq<(Name, Color)> {
    SidePairs(White) + SidePairs(Black)
  }

  /** The pieces of one (name, colour) pair: one per start square. A
      name without start squares makes `chess.py` iterate over `None`,
      a TypeError. */
  function PairPieces(name: Name, color: Color): (r: Result<seq<Piece>>)
  {
    match Tables.StartPositions(name, Known(color))
    case Err(e) => Err(e)
    case Ok(None) => Err(TypeError)
    case Ok(Some(squares)) =>
      match Tables.GetValue(name)
      case Err(e) => Err(e)
      case Ok(value) =>
        Ok(seq(|squares|, i requires 0 <= i < |squares| => Piece(color, name, value, squares[i], true)))
  }

  /** `f` applied to every element, in order. */
  function MapSeq<A, B>(f: A -> B, xs: seq<A>): (r: seq<B>)
    ensures |r| == |xs|
    ensures forall i :: 0 <= i < |xs| ==> r[i] == f(xs[i])
  {
    seq(|xs|, i requires 0 <= i < |xs| => f(xs[i]))
  }

  lemma MapAppend<A, B>(f: A -> B, xs: seq<A>, ys: seq<A>)
    ensures MapSeq(f, xs + ys) == MapSeq(f, xs) + MapSeq(f, ys)
  {
    var l := MapSeq(f, xs + ys);
    var r := MapSeq(f, xs) + MapSeq(f, ys);
    forall i | 0 <= i < |l| ensures l[i] == r[i] {
      if i < |xs| {
        assert (xs + ys)[i] == xs[i];
      } else {
        assert (xs + ys)[i] == ys[i - |xs|];
      }
    }
  }

  /** The pieces of one pair, as a function of the pair. */
  function PairOf(pair: (Name, Color)): Result<seq<Piece>> {
    PairPieces(pair.0, pair.1)
  }

  /** The outer loop's per-pair results, in order. */
  function PairResults(pairs: seq<(Name, Color)>): (rs: seq<Result<seq<Piece>>>)
  {
    MapSeq(PairOf, pairs)
  }

  /** The successful results concatenated in order; the first failure
      wins. */
  function Flatten(rs: seq<Result<seq<Piece>>>): Result<seq<Piece>>
  {
    if |rs| == 0 then Ok([])
    else
      match rs[0]
      case Err(e) => Err(e)
      case Ok(first) =>
        match Flatten(rs[1..])
        case Err(e) => Err(e)
        case Ok(rest) => Ok(first + rest)
  }

  /** All pairs' pieces, concatenated in order; the first failure wins. */
  function PiecesFor(pairs: seq<(Name, Color)>): Result<seq<Piece>>
  {
    Flatten(PairResults(pairs))
  }

  /** `Board.new_board`. */
  function NewBoard(): Result<seq<Piece>> {
    PiecesFor(SetupPairs())
  }

  /** A well-formed opening piece: recognised name, its table value,
      colour `c`, on one of the side's two home rows, first move pending. */
  predicate SetupPiece(p: Piece, c: Color) {
    && p.color == c
    && !p.name.Other?
    && Tables.GetValue(p.name) == Ok(p.value)
    && InBounds(p.position)
    && p.position.row == (if p.name == Pawn then Tables.PawnRow(c) else Tables.HomeRow(c))
    && p.position.col in Tables.StartColumns(p.name)
    && p.firstMove
  }

  /** The row a kind starts on. */
  function StartRow(name: Name, c: Color): int {
    if name == Pawn then Tables.PawnRow(c) else Tables.HomeRow(c)
  }

  /** A recognised pair yields one piece per start column, valued by the
      table and with its first move pending. */
  lemma PairPiecesShape(name: Name, c: Color)
    requires !name.Other?
    ensures PairPieces(name, c).Ok?
    ensures var b := PairPieces(name, c).value;
      && |b| == |Tables.StartColumns(name)|
      && forall i :: 0 <= i < |b| ==>
           b[i] == Piece(c, name, Tables.GetValue(name).value,
                         Position(StartRow(name, c), Tables.StartColumns(name)[i]), true)
  {
  }

  /** One side's sixteen pieces, on pairwise distinct squares. */
  lemma SideLayout(c: Color)
    ensures PiecesFor(SidePairs(c)).Ok?
    ensures var ps := PiecesFor(SidePairs(c)).value;
      && |ps| == 16
      && (forall i :: 0 <= i < 16 ==> SetupPiece(ps[i], c))
      && DistinctSquares(ps)
  {
    SidePairsShape(c);
    PiecesForSetup(SidePairs(c), c);
    PiecesForDistinct(SidePairs(c), c);
    SideCount(c);
  }

  /** A side's pairs carry its colour and six different recognised names. */
  lemma SidePairsShape(c: Color)
    ensures forall k :: 0 <= k < |SidePairs(c)| ==> SidePairs(c)[k].1 == c && !SidePairs(c)[k].0.Other?
    ensures DistinctNames(SidePairs(c))
  {
    SideKnown(c);
    SideDistinct(c);
  }

  lemma SideKnown(c: Color)
    ensures forall k :: 0 <= k < |SidePairs(c)| ==> SidePairs(c)[k].1 == c && !SidePairs(c)[k].0.Other?
  {
  }

  lemma SideDistinct(c: Color)
    ensures DistinctNames(SidePairs(c))
  {
    var pairs := SidePairs(c);
    SideNamesDiffer(c);
    DistinctNamesByIndex(pairs);
  }

  lemma SideNamesDiffer(c: Color)
    ensures forall i, j :: 0 <= i < j < |SidePairs(c)| ==> SidePairs(c)[i].0 != SidePairs(c)[j].0
  {
  }

  /** Number of start squares over a pair list. */
  function SquareCount(pairs: seq<(Name, Color)>): nat {
    if |pairs| == 0 then 0 else |Tables.StartColumns(pairs[0].0)| + SquareCount(pairs[1..])
  }

  /** Recognised pairs yield one piece per start square. */
  lemma {:induction false} PiecesForCount(pairs: seq<(Name, Color)>)
    requires forall k :: 0 <= k < |pairs| ==> !pairs[k].0.Other?
    ensures PiecesFor(pairs).Ok?
    ensures |PiecesFor(pairs).value| == SquareCount(pairs)
  {
    if |pairs| > 0 {
      PairPiecesShape(pairs[0].0, pairs[0].1);
      PiecesForCount(pairs[1..]);
      PiecesForCons(pairs);
    }
  }

  /** A side has 2 + 2 + 8 + 1 + 1 + 2 pieces. */
  lemma SideCount(c: Color)
    ensures PiecesFor(SidePairs(c)).Ok?
    ensures |PiecesFor(SidePairs(c)).value| == 16
  {
    PiecesForCount(SidePairs(c));
    SideSquareCount(c);
  }

  lemma SideSquareCount(c: Color)
    ensures SquareCount(SidePairs(c)) == 16
  {
    var pairs := SidePairs(c);
    assert SquareCount(pairs[5..]) == 2;
    assert SquareCount(pairs[4..]) == 3;
    assert SquareCount(pairs[3..]) == 4;
    assert SquareCount(pairs[2..]) == 12;
    assert SquareCount(pairs[1..]) == 14;
  }

  /** The names of a pair list, in order. */
  function Names(pairs: seq<(Name, Color)>): seq<Name> {
    if |pairs| == 0 then [] else [pairs[0].0] + Names(pairs[1..])
  }

  /** No name occurs twice in the pair list. */
  predicate DistinctNames(pairs: seq<(Name, Color)>) {
    |pairs| == 0 || (pairs[0].0 !in Names(pairs[1..]) && DistinctNames(pairs[1..]))
  }

  /** The names of a pair list are its first components. */
  lemma {:induction false} NamesAt(pairs: seq<(Name, Color)>)
    ensures |Names(pairs)| == |pairs|
    ensures forall k :: 0 <= k < |pairs| ==> Names(pairs)[k] == pairs[k].0
  {
    if |pairs| > 0 {
      NamesAt(pairs[1..]);
    }
  }

  /** Pairwise different first components make the names distinct. */
  lemma {:induction false} DistinctNamesByIndex(pairs: seq<(Name, Color)>)
    requires forall i, j :: 0 <= i < j < |pairs| ==> pairs[i].0 != pairs[j].0
    ensures DistinctNames(pairs)
  {
    if |pairs| > 0 {
      NamesAt(pairs[1..]);
      DistinctNamesByIndex(pairs[1..]);
    }
  }

  /** Every piece is an opening piece of colour `c`. */
  predicate AllSetup(ps: seq<Piece>, c: Color) {
    forall i :: 0 <= i < |ps| ==> SetupPiece(ps[i], c)
  }

  /** Every piece carries one of the given names. */
  predicate NamedFrom(ps: seq<Piece>, names: seq<Name>) {
    forall i :: 0 <= i < |ps| ==> ps[i].name in names
  }

  lemma AllSetupAppend(a: seq<Piece>, b: seq<Piece>, c: Color)
    requires AllSetup(a, c) && AllSetup(b, c)
    ensures AllSetup(a + b, c)
  {
    var ab := a + b;
    forall i | 0 <= i < |ab| ensures SetupPiece(ab[i], c) {
      if i < |a| {
        assert ab[i] == a[i];
      } else {
        assert ab[i] == b[i - |a|];
      }
    }
  }

  lemma NamedFromAppend(a: seq<Piece>, b: seq<Piece>, names: seq<Name>)
    requires NamedFrom(a, names) && NamedFrom(b, names)
    ensures NamedFrom(a + b, names)
  {
    var ab := a + b;
    forall i | 0 <= i < |ab| ensures ab[i].name in names {
      if i < |a| {
        assert ab[i] == a[i];
      } else {
        assert ab[i] == b[i - |a|];
      }
    }
  }

  /** A recognised pair yields only opening pieces of its colour. */
  lemma PairSetup(name: Name, c: Color)
    requires !name.Other?
    ensures PairPieces(name, c).Ok?
    ensures AllSetup(PairPieces(name, c).value, c)
    ensures NamedFrom(PairPieces(name, c).value, [name])
  {
    PairPiecesShape(name, c);
  }

  /** Opening pieces of one side with different names stand on different
      squares. */
  lemma SetupSquaresDiffer(p: Piece, q: Piece, c: Color)
    requires SetupPiece(p, c) && SetupPiece(q, c) && p.name != q.name
    ensures p.position != q.position
  {
    if p.name != Pawn && q.name != Pawn {
      Tables.HomeColumnsDisjoint(p.name, q.name);
    }
  }

  /** Pairs of recognised names, all of colour `c`, yield only opening
      pieces of colour `c`, each named by one of the pairs. */
  lemma {:induction false} PiecesForSetup(pairs: seq<(Name, Color)>, c: Color)
    requires forall k :: 0 <= k < |pairs| ==> pairs[k].1 == c && !pairs[k].0.Other?
    ensures PiecesFor(pairs).Ok?
    ensures AllSetup(PiecesFor(pairs).value, c)
    ensures NamedFrom(PiecesFor(pairs).value, Names(pairs))
  {
    if |pairs| > 0 {
      var name := pairs[0].0;
      PairSetup(name, c);
      PiecesForSetup(pairs[1..], c);
      var a := PairPieces(name, c).value;
      var b := PiecesFor(pairs[1..]).value;
      PiecesForCons(pairs);
      AllSetupAppend(a, b, c);
      assert NamedFrom(a, Names(pairs)) by {
        assert Names(pairs)[0] == name;
      }
      assert NamedFrom(b, Names(pairs)) by {
        assert Names(pairs) == [name] + Names(pairs[1..]);
      }
      NamedFromAppend(a, b, Names(pairs));
    }
  }

  /** Pairs of distinct recognised names, all of colour `c`, yield pieces
      on pairwise distinct squares. */
  lemma {:induction false} PiecesForDistinct(pairs: seq<(Name, Color)>, c: Color)
    requires forall k :: 0 <= k < |pairs| ==> pairs[k].1 == c && !pairs[k].0.Other?
    requires DistinctNames(pairs)
    ensures PiecesFor(pairs).Ok?
    ensures DistinctSquares(PiecesFor(pairs).value)
  {
    PiecesForSetup(pairs, c);
    if |pairs| > 0 {
      var name := pairs[0].0;
      PairSetup(name, c);
      PairPiecesShape(name, c);
      PiecesForSetup(pairs[1..], c);
      PiecesForDistinct(pairs[1..], c);
      var a := PairPieces(name, c).value;
      var b := PiecesFor(pairs[1..]).value;
      PiecesForCons(pairs);
      forall i, j | 0 <= i < |a| && 0 <= j < |b| ensures a[i].position != b[j].position {
        assert a[i].name == name && b[j].name in Names(pairs[1..]);
        SetupSquaresDiffer(a[i], b[j], c);
      }
      AppendDistinct(a, b);
    }
  }

  lemma AppendDistinct(a: seq<Piece>, b: seq<Piece>)
    requires DistinctSquares(a) && DistinctSquares(b)
    requires forall i, j :: 0 <= i < |a| && 0 <= j < |b| ==> a[i].position != b[j].position
    ensures DistinctSquares(a + b)
  {
    var ab := a + b;
    forall i, j | 0 <= i < j < |ab| ensures ab[i].position != ab[j].position {
      if j < |a| {
        assert ab[i] == a[i] && ab[j] == a[j];
      } else if i >= |a| {
        assert ab[i] == b[i - |a|] && ab[j] == b[j - |a|];
      } else {
        assert ab[i] == a[i] && ab[j] == b[j - |a|];
      }
    }
  }

  /** The opening: 32 pieces, the sixteen white ones first, all on the
      board, no two on one square, each valued by `get_value`. */
  lemma {:induction false} NewBoardLayout()
    ensures NewBoard().Ok?
    ensures var ps := NewBoard().value;
      && |ps| == 32
      && (forall i :: 0 <= i < 16 ==> SetupPiece(ps[i], White))
      && (forall i :: 16 <= i < 32 ==> SetupPiece(ps[i], Black))
      && InRange(ps)
      && DistinctSquares(ps)
  {
    SideLayout(White);
    SideLayout(Black);
    var w := PiecesFor(SidePairs(White)).value;
    var b := PiecesFor(SidePairs(Black)).value;
    PiecesForAppend(SidePairs(White), SidePairs(Black));
    assert NewBoard() == Ok(w + b);
    SidesApart(w, b);
    AppendDistinct(w, b);
    SidesJoined(w, b);
  }

  /** White opening pieces and black ones never share a square: they
      stand on rows 0-1 and 6-7. */
  lemma SidesApart(w: seq<Piece>, b: seq<Piece>)
    requires forall i :: 0 <= i < |w| ==> SetupPiece(w[i], White)
    requires forall i :: 0 <= i < |b| ==> SetupPiece(b[i], Black)
    ensures forall i, j :: 0 <= i < |w| && 0 <= j < |b| ==> w[i].position != b[j].position
  {
    forall i, j | 0 <= i < |w| && 0 <= j < |b| ensures w[i].position != b[j].position {
      assert w[i].position.row <= 1 && b[j].position.row >= 6;
    }
  }

  /** The sixteen white pieces followed by the sixteen black ones. */
  lemma SidesJoined(w: seq<Piece>, b: seq<Piece>)
    requires |w| == 16 && |b| == 16
    requires forall i :: 0 <= i < 16 ==> SetupPiece(w[i], White)
    requires forall i :: 0 <= i < 16 ==> SetupPiece(b[i], Black)
    ensures forall i :: 0 <= i < 16 ==> SetupPiece((w + b)[i], White)
    ensures forall i :: 16 <= i < 32 ==> SetupPiece((w + b)[i], Black)
    ensures InRange(w + b)
  {
  }

  /** One step of PiecesFor: a non-empty list succeeds exactly when its
      first pair and the rest do, and then concatenates them. */
  lemma PiecesForCons(pairs: seq<(Name, Color)>)
    requires |pairs| > 0
    ensures PiecesFor(pairs).Ok? <==>
      PairPieces(pairs[0].0, pairs[0].1).Ok? && PiecesFor(pairs[1..]).Ok?
    ensures PiecesFor(pairs).Ok? ==>
      PiecesFor(pairs).value == PairPieces(pairs[0].0, pairs[0].1).value + PiecesFor(pairs[1..]).value
  {
    assert PairResults(pairs)[1..] == PairResults(pairs[1..]);
  }

  lemma {:induction false} FlattenAppend(rs: seq<Result<seq<Piece>>>, ts: seq<Result<seq<Piece>>>)
    requires Flatten(rs).Ok? && Flatten(ts).Ok?
    ensures Flatten(rs + ts) == Ok(Flatten(rs).value + Flatten(ts).value)
  {
    if |rs| == 0 {
      assert rs + ts == ts;
      assert Flatten(rs).value + Flatten(ts).value == Flatten(ts).value;
    } else {
      var zs := rs + ts;
      assert zs[0] == rs[0] && zs[1..] == rs[1..] + ts;
      FlattenAppend(rs[1..], ts);
      var a, b, c := rs[0].value, Flatten(rs[1..]).value, Flatten(ts).value;
      assert a + (b + c) == (a + b) + c;
    }
  }

  lemma PiecesForAppend(xs: seq<(Name, Color)>, ys: seq<(Name, Color)>)
    requires PiecesFor(xs).Ok? && PiecesFor(ys).Ok?
    ensures PiecesFor(xs + ys) == Ok(PiecesFor(xs).value + PiecesFor(ys).value)
  {
    MapAppend(PairOf, xs, ys);
    FlattenAppend(PairResults(xs), PairResults(ys));
  }

  /* ---------------------------------------------------------------- */
  /* The board                                                         */
  /* ---------------------------------------------------------------- */

  datatype Board = Board(pieces: seq<Piece>, arr: Grid, prevArr: Grid)

  /** The grid is the piece list re-indexed by square, and the snapshot
      taken at construction equals it. */
  predicate Valid(b: Board) {
    InRange(b.pieces) && b.arr == PieceArr(b.pieces) && b.prevArr == b.arr
  }

  /** `Board.__init__` with a piece list. */
  function MakeBoard(ps: seq<Piece>): (b: Board)
    requires InRange(ps)
    ensures Valid(b) && b.pieces == ps
  {
    var arr := PieceArr(ps);
    Board(ps, arr, arr)
  }

  /** `Board.__init__`: without a piece list it builds the opening. */
  function InitBoard(pieces: Option<seq<Piece>>): (r: Result<Board>)
    requires pieces.Some? ==> InRange(pieces.value)
    ensures r.Ok? ==> Valid(r.value)
    ensures pieces.Some? ==> r.Ok? && r.value.pieces == pieces.value
    ensures pieces.None? ==> NewBoard().Ok? && r.Ok? && r.value.pieces == NewBoard().value
  {
    match pieces
    case Some(ps) => Ok(MakeBoard(ps))
    case None =>
      NewBoardLayout();
      Ok(MakeBoard(NewBoard().value))
  }

  /** A default-constructed board holds the 32 opening pieces, each shown
      on its own square of the grid. */
  lemma DefaultBoard()
    ensures InitBoard(None).Ok?
    ensures InitBoard(None).value.pieces == NewBoard().value
    ensures var b := InitBoard(None).value;
      && |b.pieces| == 32
      && forall i :: 0 <= i < 32 ==> At(b.arr, b.pieces[i].position) == Some(b.pieces[i])
  {
    NewBoardLayout();
    PieceArrShowsEach(NewBoard().value);
  }

  /** What is left after `move_piece` raises. */
  datatype Failed = Failed(after: Board, error: Error)

  /** `Board.move_piece`, for the piece at index `k`. `chess.py` computes
      the piece's moves, discards them, overwrites the piece's position
      and then raises NotImplementedError without rebuilding the grid. */
  function MovePiece(b: Board, k: nat, newPos: Position): (r: Failed)
    requires Valid(b) && k < |b.pieces|
    ensures r.error == NotImplementedError
    ensures |r.after.pieces| == |b.pieces|
    ensures r.after.pieces[k] == b.pieces[k].(position := newPos)
    ensures forall i :: 0 <= i < |b.pieces| && i != k ==> r.after.pieces[i] == b.pieces[i]
    ensures r.after.arr == b.arr && r.after.prevArr == b.prevArr
  {
    var piece := b.pieces[k];
    var _ := Moves.CorrectMoves(piece, b.arr, b.prevArr);
    Failed(Board(b.pieces[k := piece.(position := newPos)], b.arr, b.prevArr), NotImplementedError)
  }

  /** When the pieces stood on distinct squares, a real relocation leaves
      the grid out of step with the piece list. */
  lemma MoveLeavesGridStale(b: Board, k: nat, newPos: Position)
    requires Valid(b) && k < |b.pieces| && DistinctSquares(b.pieces)
    requires newPos != b.pieces[k].position
    ensures !Valid(MovePiece(b, k, newPos).after)
  {
    var after := MovePiece(b, k, newPos).after;
    var from := b.pieces[k].position;
    if InRange(after.pieces) {
      PieceArrShowsEach(b.pieces);
      PieceArrIndex(after.pieces);
      assert At(b.arr, from) == Some(b.pieces[k]);
      forall i | 0 <= i < |after.pieces| ensures after.pieces[i].position != from {
        if i != k {
          assert b.pieces[i].position != from;
        }
      }
      assert At(PieceArr(after.pieces), from).None?;
    }
  }
}

=== FILE: fen.dfy ===
/** `Board.from_FEN`: building a board from the piece-placement field of
    Forsyth-Edwards Notation. */
module Fen {
  import opened ChessTypes
  import Tables
  import Boards

  /* ---------------------------------------------------------------- */
  /* Splitting on the rank separator                                   */
  /* ---------------------------------------------------------------- */

  /** `str.split(sep)`: the maximal separator-free pieces, in order; the
      empty string gives one empty piece. */
  function Split(s: string, sep: char): (parts: seq<string>)
    ensures |parts| >= 1
    ensures forall i :: 0 <= i < |parts| ==> sep !in parts[i]
  {
    if |s| == 0 then [""]
    else
      var rest := Split(s[1..], sep);
      if s[0] == sep then [""] + rest
      else [[s[0]] + rest[0]] + rest[1..]
  }

  /** `sep.join(parts)`. */
  function Join(parts: seq<string>, sep: char): string
    requires |parts| >= 1
  {
    if |parts| == 1 then parts[0] else parts[0] + [sep] + Join(parts[1..], sep)
  }

  /** Splitting loses nothing: joining the pieces back gives `s`. */
  lemma {:induction false} JoinSplit(s: string, sep: char)
    ensures Join(Split(s, sep), sep) == s
  {
    if |s| > 0 {
      JoinSplit(s[1..], sep);
      var rest := Split(s[1..], sep);
      if s[0] != sep {
        if |rest| == 1 {
          assert Join(Split(s, sep), sep) == [s[0]] + rest[0];
        } else {
          assert Split(s, sep)[1..] == rest[1..];
          assert Join(Split(s, sep), sep) == ([s[0]] + rest[0]) + [sep] + Join(rest[1..], sep);
        }
      }
      assert s == [s[0]] + s[1..];
    }
  }

  /** Splitting a join of separator-free pieces gives back the pieces. */
  lemma {:induction false} SplitJoin(parts: seq<string>, sep: char)
    requires |parts| >= 1
    requires forall i :: 0 <= i < |parts| ==> sep !in parts[i]
    ensures Split(Join(parts, sep), sep) == parts
    decreases |parts|, |parts[0]|
  {
    var p := parts[0];
    var tail := parts[1..];
    if |p| == 0 {
      if |parts| > 1 {
        SplitJoin(tail, sep);
        var j := [sep] + Join(tail, sep);
        assert Join(parts, sep) == j;
        assert j[1..] == Join(tail, sep);
        assert Split(j, sep) == [""] + tail;
        assert parts == [""] + tail;
      }
    } else {
      var parts' := [p[1..]] + tail;
      assert sep !in p[1..] by {
        assert forall c :: c in p[1..] ==> c in p;
      }
      assert forall i :: 1 <= i < |parts'| ==> parts'[i] == parts[i];
      SplitJoin(parts', sep);
      var rest := Join(parts', sep);
      var j := [p[0]] + rest;
      assert Join(parts, sep) == j by {
        assert p == [p[0]] + p[1..];
        if |parts| > 1 {
          assert Join(parts, sep) == p + [sep] + Join(tail, sep);
          assert parts'[1..] == tail;
          assert rest == p[1..] + [sep] + Join(tail, sep);
        }
      }
      assert j[0] == p[0] && j[1..] == rest;
      assert p[0] != sep;
      assert Split(j, sep) == [[p[0]] + p[1..]] + tail;
      assert p == [p[0]] + p[1..];
      assert parts == [p] + tail;
    }
  }

  /* ---------------------------------------------------------------- */
  /* Expanding one rank                                                */
  /* ---------------------------------------------------------------- */

  /** A cell after digit expansion: empty, or a one-character symbol. */
  datatype Cell = Blank | Sym(ch: char)

  function Blanks(n: nat): (r: seq<Cell>)
    ensures |r| == n && forall i :: 0 <= i < n ==> r[i] == Blank
  {
    seq(n, i => Blank)
  }

  predicate IsDigit(ch: char) {
    '0' <= ch <= '9'
  }

  function DigitValue(ch: char): nat
    requires IsDigit(ch)
  {
    (ch as int) - ('0' as int)
  }

  /** The in-place loop of `chess.py`: a digit `d` is popped and replaced by
      `d` empty cells and the index then moves one past the insertion
      point. For `d >= 1` that lands on a blank or on the next original
      character; for `'0'` nothing is inserted, so the character after
      the zero is stepped over and stays a raw symbol, digit or not. */
  function ExpandRank(s: string): seq<Cell>
  {
    if |s| == 0 then []
    else if s[0] == '0' then
      (if |s| == 1 then [] else [Sym(s[1])] + ExpandRank(s[2..]))
    else if IsDigit(s[0]) then Blanks(DigitValue(s[0])) + ExpandRank(s[1..])
    else [Sym(s[0])] + ExpandRank(s[1..])
  }

  /** The digit for a run of `n` blanks, `1 <= n <= 8`. */
  function DigitChar(n: int): (ch: char)
    requires 1 <= n <= 8
    ensures IsDigit(ch) && ch != '0' && DigitValue(ch) == n
  {
    ((n + '0' as int) as char)
  }

  /** Number of leading blanks of `cells`, at most 8. */
  function BlankRun(cells: seq<Cell>): (n: nat)
    ensures n <= 8 && n <= |cells|
    ensures forall i :: 0 <= i < n ==> cells[i] == Blank
    ensures n < 8 && n < |cells| ==> cells[n] != Blank
  {
    if |cells| == 0 || cells[0] != Blank then 0
    else if BlankRun(cells[1..]) == 8 then 8
    else 1 + BlankRun(cells[1..])
  }

  /** The placement text of a rank: each symbol as itself, each run of
      blanks as one digit (runs longer than 8 split). */
  function CompressRank(cells: seq<Cell>): string
    decreases |cells|
  {
    if |cells| == 0 then ""
    else if cells[0].Sym? then [cells[0].ch] + CompressRank(cells[1..])
    else
      var n := BlankRun(cells);
      [DigitChar(n)] + CompressRank(cells[n..])
  }

  predicate NoDigitSymbols(cells: seq<Cell>) {
    forall i :: 0 <= i < |cells| && cells[i].Sym? ==> !IsDigit(cells[i].ch)
  }

  /** Expansion undoes compression for every rank whose symbols are not
      digits. */
  lemma {:induction false} ExpandCompress(cells: seq<Cell>)
    requires NoDigitSymbols(cells)
    ensures ExpandRank(CompressRank(cells)) == cells
    decreases |cells|
  {
    if |cells| > 0 {
      if cells[0].Sym? {
        assert NoDigitSymbols(cells[1..]);
        ExpandCompress(cells[1..]);
        SymbolStep(cells);
      } else {
        var n := BlankRun(cells);
        assert NoDigitSymbols(cells[n..]);
        ExpandCompress(cells[n..]);
        BlankStep(cells);
      }
    }
  }

  /** A leading symbol is written as itself and read back as itself. */
  lemma SymbolStep(cells: seq<Cell>)
    requires |cells| > 0 && cells[0].Sym? && !IsDigit(cells[0].ch)
    requires ExpandRank(CompressRank(cells[1..])) == cells[1..]
    ensures ExpandRank(CompressRank(cells)) == cells
  {
    var s := CompressRank(cells);
    assert s == [cells[0].ch] + CompressRank(cells[1..]);
    assert s[1..] == CompressRank(cells[1..]);
    assert cells == [cells[0]] + cells[1..];
  }

  /** A leading run of blanks is written as one digit and read back as
      that many blanks. */
  lemma BlankStep(cells: seq<Cell>)
    requires |cells| > 0 && cells[0].Blank?
    requires ExpandRank(CompressRank(cells[BlankRun(cells)..])) == cells[BlankRun(cells)..]
    ensures ExpandRank(CompressRank(cells)) == cells
  {
    var n := BlankRun(cells);
    var rest := CompressRank(cells[n..]);
    var d := DigitChar(n);
    assert CompressRank(cells) == [d] + rest;
    ExpandDigit(d, rest);
    BlankPrefix(cells, n);
  }

  lemma ExpandDigit(d: char, rest: string)
    requires IsDigit(d) && d != '0'
    ensures ExpandRank([d] + rest) == Blanks(DigitValue(d)) + ExpandRank(rest)
  {
    assert ([d] + rest)[1..] == rest;
  }

  lemma BlankPrefix(cells: seq<Cell>, n: nat)
    requires n <= |cells| && forall i :: 0 <= i < n ==> cells[i] == Blank
    ensures cells == Blanks(n) + cells[n..]
  {
    assert cells[..n] == Blanks(n);
    assert cells == cells[..n] + cells[n..];
  }

  /* ---------------------------------------------------------------- */
  /* Symbols and pieces                                                */
  /* ---------------------------------------------------------------- */

  /** The symbol table of `chess.py`: lower case is Black, upper case White. */
  function FenPiece(ch: char): (r: Option<(Name, Color)>)
    ensures r.Some? ==> !r.value.0.Other?
  {
    match ch
    case 'r' => Some((Rook, Black))
    case 'n' => Some((Knight, Black))
    case 'b' => Some((Bishop, Black))
    case 'q' => Some((Queen, Black))
    case 'k' => Some((King, Black))
    case 'p' => Some((Pawn, Black))
    case 'R' => Some((Rook, White))
    case 'N' => Some((Knight, White))
    case 'B' => Some((Bishop, White))
    case 'Q' => Some((Queen, White))
    case 'K' => Some((King, White))
    case 'P' => Some((Pawn, White))
    case _ => None
  }

  predicate KnownCell(cell: Cell) {
    cell.Sym? ==> FenPiece(cell.ch).Some?
  }

  /** The piece `chess.py` creates for a known symbol at rank `i`
      (0 = top of the string) and column `j`. */
  function SymbolPiece(ch: char, i: int, j: int): (p: Piece)
    requires FenPiece(ch).Some?
    ensures p.position == Position(7 - i, j)
    ensures (p.name, p.color) == FenPiece(ch).value
  {
    var (name, color) := FenPiece(ch).value;
    Piece(color, name, Tables.GetValue(name).value, Position(7 - i, j), true)
  }

  /* ---------------------------------------------------------------- */
  /* Reading the 8x8 cells                                             */
  /* ---------------------------------------------------------------- */

  /** Cells `j..7` of rank `i`, a piece for each symbol. A missing cell
      is an IndexError and an unknown symbol a KeyError, whichever comes
      first in the scan. */
  function RankPieces(row: seq<Cell>, i: int, j: nat): (r: Result<seq<Piece>>)
    requires j <= 8
    ensures r.Ok? <==> (j == 8 || 8 <= |row|) && KnownRank(row, j)
    ensures r.Err? && 8 <= |row| ==> r.error.KeyError?
    ensures r.Ok? ==> forall t :: 0 <= t < |r.value| ==>
      var col := r.value[t].position.col;
      && j <= col < 8 && row[col].Sym?
      && r.value[t] == SymbolPiece(row[col].ch, i, col)
    ensures r.Ok? ==> forall t, u :: 0 <= t < u < |r.value| ==>
      r.value[t].position.col < r.value[u].position.col
    decreases 8 - j
  {
    if j == 8 then Ok([])
    else if j >= |row| then Err(IndexError)
    else
      match row[j]
      case Blank => RankPieces(row, i, j + 1)
      case Sym(ch) =>
        match FenPiece(ch)
        case None => Err(KeyError([ch]))
        case Some((name, color)) =>
          match Tables.GetValue(name)
          case Err(e) => Err(e)
          case Ok(value) =>
            match RankPieces(row, i, j + 1)
            case Err(e) => Err(e)
            case Ok(rest) => Ok([Piece(color, name, value, Position(7 - i, j), true)] + rest)
  }

  /** Cells `j..7` of a rank, as far as they exist, are blank or known. */
  predicate KnownRank(row: seq<Cell>, j: int) {
    forall k :: j <= k < 8 && 0 <= k < |row| ==> KnownCell(row[k])
  }

  /** Cells `0..7` of ranks `i..7`, as far as they exist, are blank or
      known. */
  predicate KnownRows(x: seq<seq<Cell>>, i: int) {
    forall i' :: i <= i' < 8 && 0 <= i' < |x| ==> KnownRank(x[i'], 0)
  }

  /** The first 8 ranks each hold at least 8 cells. */
  predicate WellShaped(x: seq<seq<Cell>>) {
    8 <= |x| && forall i :: 0 <= i < 8 ==> 8 <= |x[i]|
  }

  /** Every symbol among the first 8x8 cells is one of the 12 letters. */
  predicate AllKnown(x: seq<seq<Cell>>)
    requires WellShaped(x)
  {
    forall i, j :: 0 <= i < 8 && 0 <= j < 8 ==> KnownCell(x[i][j])
  }

  /** Ranks `i..7` exist and hold at least 8 cells each. */
  predicate ShapedFrom(x: seq<seq<Cell>>, i: nat) {
    8 <= |x| && forall i' :: i <= i' < 8 ==> 8 <= |x[i']|
  }

  /** `p` is the piece created for a known symbol among cells `(i..7, 0..7)`. */
  predicate FromCell(x: seq<seq<Cell>>, i: nat, p: Piece) {
    var rank := 7 - p.position.row;
    var col := p.position.col;
    && i <= rank < 8 && 0 <= col < 8 && rank < |x| && col < |x[rank]|
    && x[rank][col].Sym? && FenPiece(x[rank][col].ch).Some?
    && p == SymbolPiece(x[rank][col].ch, rank, col)
  }

  /** Ranks `i..7`, row-major. */
  function BoardRows(x: seq<seq<Cell>>, i: nat): (r: Result<seq<Piece>>)
    requires i <= 8
    ensures r.Err? && WellShaped(x) ==> r.error.KeyError?
    ensures r.Ok? <==> (i == 8 || ShapedFrom(x, i)) && KnownRows(x, i)
    ensures r.Ok? ==> forall t :: 0 <= t < |r.value| ==> FromCell(x, i, r.value[t])
    ensures r.Ok? ==> Boards.DistinctSquares(r.value)
    decreases 8 - i
  {
    if i == 8 then Ok([])
    else if i >= |x| then Err(IndexError)
    else
      RowsStep(x, i);
      match RankPieces(x[i], i, 0)
      case Err(e) => Err(e)
      case Ok(a) =>
        match BoardRows(x, i + 1)
        case Err(e) => Err(e)
        case Ok(b) =>
          BoardRowsStep(x, i, a, b);
          Ok(a + b)
  }

  /** Peeling rank `i` off the shape and symbol conditions. */
  lemma RowsStep(x: seq<seq<Cell>>, i: nat)
    requires i < 8 && i < |x|
    ensures KnownRows(x, i) <==> KnownRank(x[i], 0) && KnownRows(x, i + 1)
    ensures ShapedFrom(x, i) <==> 8 <= |x[i]| && (i + 1 == 8 || ShapedFrom(x, i + 1))
  {
  }

  lemma BoardRowsStep(x: seq<seq<Cell>>, i: nat, a: seq<Piece>, b: seq<Piece>)
    requires i < 8 && i < |x|
    requires RankPieces(x[i], i, 0) == Ok(a)
    requires forall t :: 0 <= t < |b| ==> FromCell(x, i + 1, b[t])
    requires Boards.DistinctSquares(b)
    ensures Boards.DistinctSquares(a + b)
    ensures forall t :: 0 <= t < |a + b| ==> FromCell(x, i, (a + b)[t])
  {
    forall t | 0 <= t < |a| ensures FromCell(x, i, a[t]) && a[t].position.row == 7 - i {
      var col := a[t].position.col;
      assert x[i][col].Sym? && a[t] == SymbolPiece(x[i][col].ch, i, col);
    }
    forall t | 0 <= t < |b| ensures FromCell(x, i, b[t]) && b[t].position.row < 7 - i {
      assert FromCell(x, i + 1, b[t]);
    }
    Boards.AppendDistinct(a, b);
    var ab := a + b;
    forall t | 0 <= t < |ab| ensures FromCell(x, i, ab[t]) {
      if t < |a| {
        assert ab[t] == a[t];
      } else {
        assert ab[t] == b[t - |a|];
      }
    }
  }

  /** The placement field expanded: ranks split on `/`, digits expanded. */
  function Expanded(s: string): seq<seq<Cell>> {
    var ranks := Split(s, '/');
    seq(|ranks|, k requires 0 <= k < |ranks| => ExpandRank(ranks[k]))
  }

  /** `Board.from_FEN`: rank `i` of the string becomes board row `7 - i`;
      only the first 8 cells of the first 8 ranks are read, so trailing
      FEN fields are ignored unless they fall inside them. */
  function FromFen(s: string): (r: Result<Boards.Board>)
    ensures r.Ok? ==> Boards.Valid(r.value)
  {
    match BoardRows(Expanded(s), 0)
    case Err(e) => Err(e)
    case Ok(ps) => Ok(Boards.MakeBoard(ps))
  }

  /* ---------------------------------------------------------------- */
  /* What a parsed board looks like                                    */
  /* ---------------------------------------------------------------- */

  /** A parse succeeds exactly when the first 8 ranks expand to at least
      8 cells each and every symbol among those 8x8 cells is known. */
  lemma FromFenSucceeds(s: string)
    ensures FromFen(s).Ok? <==> WellShaped(Expanded(s)) && AllKnown(Expanded(s))
  {
    var x := Expanded(s);
    assert ShapedFrom(x, 0) <==> WellShaped(x);
    if WellShaped(x) {
      assert KnownRows(x, 0) <==> AllKnown(x) by {
        if KnownRows(x, 0) {
          forall i, j | 0 <= i < 8 && 0 <= j < 8 ensures KnownCell(x[i][j]) {
            assert KnownRank(x[i], 0);
          }
        }
      }
    }
  }

  /** With all 8x8 cells present, an unknown symbol among them is a
      KeyError and no board is built. */
  lemma UnknownSymbolRaises(s: string)
    requires WellShaped(Expanded(s)) && !AllKnown(Expanded(s))
    ensures FromFen(s).Err? && FromFen(s).error.KeyError?
  {
    FromFenSucceeds(s);
  }

  /** Some piece of `ps` stands on `q`. */
  predicate Occupies(ps: seq<Piece>, q: Position) {
    exists t :: 0 <= t < |ps| && ps[t].position == q
  }

  /** Every known symbol among cells `j..7` of the rank yields a piece. */
  lemma {:induction false} RankPiecesComplete(row: seq<Cell>, i: int, j: nat)
    requires j <= 8 && RankPieces(row, i, j).Ok?
    ensures forall k :: j <= k < 8 && row[k].Sym? ==>
      Occupies(RankPieces(row, i, j).value, Position(7 - i, k))
    decreases 8 - j
  {
    if j < 8 {
      RankPiecesStep(row, i, j);
      RankPiecesComplete(row, i, j + 1);
      var rest := RankPieces(row, i, j + 1).value;
      if row[j].Sym? {
        var p := SymbolPiece(row[j].ch, i, j);
        forall k | j <= k < 8 && row[k].Sym? ensures Occupies([p] + rest, Position(7 - i, k)) {
          OccupiesCons(p, rest, Position(7 - i, k));
        }
      }
    }
  }

  /** One cell of the rank scan: a blank adds nothing, a symbol adds its
      piece in front of the rest. */
  lemma RankPiecesStep(row: seq<Cell>, i: int, j: nat)
    requires j < 8 && RankPieces(row, i, j).Ok?
    ensures RankPieces(row, i, j + 1).Ok?
    ensures row[j].Blank? ==> RankPieces(row, i, j).value == RankPieces(row, i, j + 1).value
    ensures row[j].Sym? ==> FenPiece(row[j].ch).Some?
    ensures row[j].Sym? ==>
      RankPieces(row, i, j).value == [SymbolPiece(row[j].ch, i, j)] + RankPieces(row, i, j + 1).value
  {
  }

  lemma OccupiesCons(p: Piece, rest: seq<Piece>, q: Position)
    requires p.position == q || Occupies(rest, q)
    ensures Occupies([p] + rest, q)
  {
    if p.position == q {
      assert ([p] + rest)[0] == p;
    } else {
      var t :| 0 <= t < |rest| && rest[t].position == q;
      assert ([p] + rest)[t + 1] == rest[t];
    }
  }

  /** Every known symbol among the cells of ranks `i..7` yields a piece. */
  lemma {:induction false} BoardRowsComplete(x: seq<seq<Cell>>, i: nat)
    requires i <= 8 && BoardRows(x, i).Ok?
    ensures forall i', k :: i <= i' < 8 && 0 <= k < 8 && x[i'][k].Sym? ==>
      Occupies(BoardRows(x, i).value, Position(7 - i', k))
    decreases 8 - i
  {
    if i < 8 {
      BoardRowsComplete(x, i + 1);
      RankPiecesComplete(x[i], i, 0);
      var a := RankPieces(x[i], i, 0).value;
      var b := BoardRows(x, i + 1).value;
      assert BoardRows(x, i).value == a + b;
      forall i', k | i <= i' < 8 && 0 <= k < 8 && x[i'][k].Sym?
        ensures Occupies(a + b, Position(7 - i', k))
      {
        if i' == i {
          var t :| 0 <= t < |a| && a[t].position == Position(7 - i', k);
          assert (a + b)[t] == a[t];
        } else {
          var t :| 0 <= t < |b| && b[t].position == Position(7 - i', k);
          assert (a + b)[|a| + t] == b[t];
        }
      }
    }
  }

  /** The display text of an expanded cell, read straight off the
      symbol: blank, or the side letter (upper case White, lower case
      Black) followed by the symbol in upper case. */
  function CellText(cell: Cell): string {
    match cell
    case Blank => "  "
    case Sym(ch) =>
      var side := if 'A' <= ch <= 'Z' then "W" else "B";
      var upper := if 'a' <= ch <= 'z' then (ch as int - 32) as char else ch;
      side + [upper]
  }

  lemma SymbolCode(ch: char, i: int, j: int)
    requires FenPiece(ch).Some?
    ensures Boards.Code(SymbolPiece(ch, i, j)) == Ok(CellText(Sym(ch)))
  {
  }

  /** No parsed piece stands on a blank cell. */
  lemma BlankCellUnoccupied(x: seq<seq<Cell>>, ps: seq<Piece>, i: int, j: int)
    requires WellShaped(x) && 0 <= i < 8 && 0 <= j < 8 && x[i][j].Blank?
    requires forall t :: 0 <= t < |ps| ==> FromCell(x, 0, ps[t])
    ensures !Occupies(ps, Position(7 - i, j))
  {
  }

  /** Pieces read from expanded cells stand on the board and carry
      recognised names. */
  lemma ParsedPiecesFit(x: seq<seq<Cell>>, ps: seq<Piece>)
    requires forall t :: 0 <= t < |ps| ==> FromCell(x, 0, ps[t])
    ensures Boards.InRange(ps) && Boards.KnownNames(ps)
  {
    forall t | 0 <= t < |ps| ensures InBounds(ps[t].position) && !ps[t].name.Other? {
      assert FromCell(x, 0, ps[t]);
    }
  }

  /** A symbol cell of a parsed board is occupied. */
  lemma SymCellOccupied(x: seq<seq<Cell>>, ps: seq<Piece>, i: int, j: int)
    requires BoardRows(x, 0) == Ok(ps) && 0 <= i < 8 && 0 <= j < 8
    requires ShapedFrom(x, 0) && x[i][j].Sym?
    ensures Occupies(ps, Position(7 - i, j))
  {
    BoardRowsComplete(x, 0);
  }

  /** An occupied square of the grid of parsed pieces shows the piece of
      the symbol in its cell. */
  lemma OccupiedShowsSymbol(x: seq<seq<Cell>>, ps: seq<Piece>, i: int, j: int)
    requires Boards.InRange(ps) && ShapedFrom(x, 0) && 0 <= i < 8 && 0 <= j < 8
    requires x[i][j].Sym? && FenPiece(x[i][j].ch).Some?
    requires forall t :: 0 <= t < |ps| ==> FromCell(x, 0, ps[t])
    requires Occupies(ps, Position(7 - i, j))
    ensures At(Boards.PieceArr(ps), Position(7 - i, j)) == Some(SymbolPiece(x[i][j].ch, i, j))
  {
    var q := Position(7 - i, j);
    Boards.PieceArrIndex(ps);
    var t :| 0 <= t < |ps| && ps[t].position == q;
    assert FromCell(x, 0, ps[t]);
    var v := At(Boards.PieceArr(ps), q);
    assert v.Some?;
    var u :| Boards.LastAt(ps, u, q) && ps[u] == v.value;
    assert FromCell(x, 0, ps[u]);
  }

  /** An unoccupied square of the grid is empty. */
  lemma UnoccupiedEmpty(ps: seq<Piece>, q: Position)
    requires Boards.InRange(ps) && InBounds(q) && !Occupies(ps, q)
    ensures At(Boards.PieceArr(ps), q) == None
  {
    Boards.PieceArrIndex(ps);
  }

  /** One square of a parsed board: square `(7 - i, j)` of the derived
      grid renders cell `j` of rank `i`. */
  lemma RenderedCell(x: seq<seq<Cell>>, ps: seq<Piece>, i: int, j: int)
    requires BoardRows(x, 0) == Ok(ps) && 0 <= i < 8 && 0 <= j < 8
    ensures Boards.InRange(ps)
    ensures Boards.SquareText(At(Boards.PieceArr(ps), Position(7 - i, j))) == CellText(x[i][j])
  {
    assert ShapedFrom(x, 0) && KnownRank(x[i], 0);
    ParsedPiecesFit(x, ps);
    if x[i][j].Sym? {
      SymCellOccupied(x, ps, i, j);
      OccupiedShowsSymbol(x, ps, i, j);
      SymbolCode(x[i][j].ch, i, j);
    } else {
      BlankCellUnoccupied(x, ps, i, j);
      UnoccupiedEmpty(ps, Position(7 - i, j));
    }
  }

  /** One display square of the rendering of pieces read from `x`. */
  lemma ParsedCell(x: seq<seq<Cell>>, ps: seq<Piece>, i: int, j: int)
    requires BoardRows(x, 0) == Ok(ps) && 0 <= i < 8 && 0 <= j < 8
    ensures Boards.InRange(ps) && Boards.StrArr(ps).Ok?
    ensures Boards.StrArr(ps).value[i][j] == CellText(x[i][j])
  {
    ParsedPiecesFit(x, ps);
    RenderedCell(x, ps, i, j);
    Boards.StrArrAt(ps, i, j);
  }

  /** The rendering of the pieces read from expanded cells `x`. */
  lemma ParsedRenders(x: seq<seq<Cell>>, ps: seq<Piece>)
    requires BoardRows(x, 0) == Ok(ps)
    ensures Boards.InRange(ps) && Boards.StrArr(ps).Ok?
    ensures var a := Boards.StrArr(ps).value;
      forall i, j :: 0 <= i < 8 && 0 <= j < 8 ==> a[i][j] == CellText(x[i][j])
  {
    ParsedPiecesFit(x, ps);
    forall i, j | 0 <= i < 8 && 0 <= j < 8
      ensures Boards.StrArr(ps).value[i][j] == CellText(x[i][j])
    {
      ParsedCell(x, ps, i, j);
    }
  }

  /** The text grid of a parsed board shows, at display position
      `[i][j]`, exactly expanded cell `j` of rank `i`. */
  lemma FromFenRenders(s: string)
    requires FromFen(s).Ok?
    ensures var b := FromFen(s).value;
      && Boards.StrArr(b.pieces).Ok?
      && var a := Boards.StrArr(b.pieces).value;
         forall i, j :: 0 <= i < 8 && 0 <= j < 8 ==> a[i][j] == CellText(Expanded(s)[i][j])
  {
    ParsedRenders(Expanded(s), BoardRows(Expanded(s), 0).value);
  }

  /* ---------------------------------------------------------------- */
  /* Counting ranks                                                    */
  /* ---------------------------------------------------------------- */

  /** With fewer than eight ranks, every one of them full and known from
      rank `i` on, reading runs past the last rank and raises IndexError. */
  lemma {:induction false} MissingRankRaises(x: seq<seq<Cell>>, i: nat)
    requires i <= |x| < 8
    requires forall k :: i <= k < |x| ==> 8 <= |x[k]| && KnownRank(x[k], 0)
    ensures BoardRows(x, i) == Err(IndexError)
    decreases |x| - i
  {
    if i < |x| {
      MissingRankRaises(x, i + 1);
    }
  }

  /** `from_FEN` on a placement of fewer than eight ranks, each expanding
      to at least eight cells that are blank or known, raises IndexError
      rather than a KeyError: `8/8/8/8/8/8/8` is one. */
  lemma FewRanksRaise(s: string)
    requires |Expanded(s)| < 8
    requires forall k :: 0 <= k < |Expanded(s)| ==> 8 <= |Expanded(s)[k]| && KnownRank(Expanded(s)[k], 0)
    ensures FromFen(s) == Err(IndexError)
  {
    MissingRankRaises(Expanded(s), 0);
  }
}

=== FILE: moves.dfy ===
/** `Piece.correct_moves`: pseudo-legal destination squares of one piece
    on an 8x8 grid, without captures, checks or special moves. */
module Moves {
  import opened ChessTypes
  import Tables

  /* ---------------------------------------------------------------- */
  /* Ray walks                                                         */
  /* ---------------------------------------------------------------- */

  /** A unit step along a rank, a file or a diagonal. */
  datatype Direction = Direction(dr: int, dc: int)

  predicate IsDirection(d: Direction) {
    -1 <= d.dr <= 1 && -1 <= d.dc <= 1 && (d.dr != 0 || d.dc != 0)
  }

  /** `k` times a unit component, kept linear for the solver. */
  function Scale(k: int, unit: int): int {
    if unit == 0 then 0 else if unit > 0 then k else -k
  }

  /** The square `k` steps from `p` in direction `d`. */
  function Offset(p: Position, d: Direction, k: int): Position {
    Position(p.row + Scale(k, d.dr), p.col + Scale(k, d.dc))
  }

  /** Every square 1..n steps from `p` along `d` is on the board and empty. */
  predicate Clear(g: Grid, p: Position, d: Direction, n: int)
    requires IsGrid(g)
  {
    forall j :: 1 <= j <= n ==> Vacant(g, Offset(p, d, j))
  }

  /** Reference meaning of a slide: `x` is `k >= 1` steps away along `d`
      and nothing stands on the way, `x` included. */
  ghost predicate SlideTarget(g: Grid, p: Position, d: Direction, x: Position)
    requires IsGrid(g)
  {
    exists k :: 1 <= k && x == Offset(p, d, k) && Clear(g, p, d, k)
  }

  /** The walk of the `for`/`break` loops in `chess.py`: squares `k`, `k+1`, ...
      steps away, stopping at the edge or before the first occupied
      square. At most 7 steps are taken; from an on-board square the
      eighth is always off the board. */
  function Ray(g: Grid, p: Position, d: Direction, k: nat): (r: seq<Position>)
    requires IsGrid(g) && IsDirection(d) && 1 <= k
    ensures forall i :: 0 <= i < |r| ==> r[i] == Offset(p, d, k + i) && Vacant(g, r[i])
    ensures k + |r| > 7 || !Vacant(g, Offset(p, d, k + |r|))
    decreases 8 - k
  {
    var q := Offset(p, d, k);
    if k > 7 || !Vacant(g, q) then [] else [q] + Ray(g, p, d, k + 1)
  }

  lemma OffsetLeavesBoard(p: Position, d: Direction, k: int)
    requires InBounds(p) && IsDirection(d) && k >= 8
    ensures !InBounds(Offset(p, d, k))
  {
  }

  /** From an on-board square the walk along `d` is exactly the run of
      empty squares at distances 1, 2, ...: it ends at the edge or just
      before an occupied square, which it does not include. */
  lemma RayIsRun(g: Grid, p: Position, d: Direction)
    requires IsGrid(g) && InBounds(p) && IsDirection(d)
    ensures forall i :: 0 <= i < |Ray(g, p, d, 1)| ==> Ray(g, p, d, 1)[i] == Offset(p, d, i + 1)
    ensures Clear(g, p, d, |Ray(g, p, d, 1)|)
    ensures !Vacant(g, Offset(p, d, |Ray(g, p, d, 1)| + 1))
  {
    RayClear(g, p, d);
    RayStops(g, p, d);
  }

  lemma RayClear(g: Grid, p: Position, d: Direction)
    requires IsGrid(g) && IsDirection(d)
    ensures Clear(g, p, d, |Ray(g, p, d, 1)|)
  {
    var r := Ray(g, p, d, 1);
    forall j | 1 <= j <= |r| ensures Vacant(g, Offset(p, d, j)) {
      assert r[j - 1] == Offset(p, d, j);
    }
  }

  lemma RayStops(g: Grid, p: Position, d: Direction)
    requires IsGrid(g) && InBounds(p) && IsDirection(d)
    ensures !Vacant(g, Offset(p, d, |Ray(g, p, d, 1)| + 1))
  {
    var n := |Ray(g, p, d, 1)|;
    if n + 1 > 7 {
      OffsetLeavesBoard(p, d, n + 1);
    }
  }

  /** A square lies on the walk along `d` exactly when it is a slide
      target in that direction. */
  lemma RayIsSlide(g: Grid, p: Position, d: Direction)
    requires IsGrid(g) && InBounds(p) && IsDirection(d)
    ensures forall x :: x in Ray(g, p, d, 1) <==> SlideTarget(g, p, d, x)
  {
    var r := Ray(g, p, d, 1);
    RayIsRun(g, p, d);
    forall x | x in r ensures SlideTarget(g, p, d, x) {
      var i :| 0 <= i < |r| && r[i] == x;
      assert Clear(g, p, d, i + 1);
    }
    forall x | SlideTarget(g, p, d, x) ensures x in r {
      var k :| 1 <= k && x == Offset(p, d, k) && Clear(g, p, d, k);
      assert k <= |r|;
      assert r[k - 1] == x;
    }
  }

  /* ---------------------------------------------------------------- */
  /* Per-kind generators                                               */
  /* ---------------------------------------------------------------- */

  /** Row direction in which a side's pawns advance. */
  function Forward(c: Color): int {
    if c == White then 1 else -1
  }

  /** Reference meaning of a pawn move: one step forward onto an empty
      square, or two steps forward from the pawn's start rank onto an
      empty square, whatever stands on the square in between. */
  predicate PawnTarget(g: Grid, c: Color, p: Position, x: Position)
    requires IsGrid(g)
  {
    Vacant(g, x) && x.col == p.col &&
    (x.row == p.row + Forward(c) ||
     (p.row == Tables.PawnRow(c) && x.row == p.row + 2 * Forward(c)))
  }

  function PawnMoves(g: Grid, c: Color, p: Position): (r: seq<Position>)
    requires IsGrid(g) && InBounds(p)
    ensures forall x :: x in r <==> PawnTarget(g, c, p, x)
  {
    if c == White then
      (if p.row != 7 && At(g, Position(p.row + 1, p.col)) == None then [Position(p.row + 1, p.col)] else []) +
      (if p.row == 1 && At(g, Position(p.row + 2, p.col)) == None then [Position(p.row + 2, p.col)] else [])
    else
      (if p.row != 0 && At(g, Position(p.row - 1, p.col)) == None then [Position(p.row - 1, p.col)] else []) +
      (if p.row == 6 && At(g, Position(p.row - 2, p.col)) == None then [Position(p.row - 2, p.col)] else [])
  }

  /** Rook directions, in the order `chess.py` scans them. */
  const Orthogonal: seq<Direction> :=
    [Direction(1, 0), Direction(-1, 0), Direction(0, 1), Direction(0, -1)]

  /** Bishop directions, in the order `chess.py` scans them. */
  const Diagonal: seq<Direction> :=
    [Direction(1, 1), Direction(1, -1), Direction(-1, 1), Direction(-1, -1)]

  /** The four rays along `ds`, concatenated in order. */
  function Rays(g: Grid, p: Position, ds: seq<Direction>): (r: seq<Position>)
    requires IsGrid(g) && forall i :: 0 <= i < |ds| ==> IsDirection(ds[i])
    ensures forall i :: 0 <= i < |r| ==> Vacant(g, r[i]) && r[i] != p
  {
    if |ds| == 0 then [] else Ray(g, p, ds[0], 1) + Rays(g, p, ds[1..])
  }

  function RookMoves(g: Grid, p: Position): (r: seq<Position>)
    requires IsGrid(g)
    ensures AwayFrom(r, p)
  {
    Rays(g, p, Orthogonal)
  }

  function BishopMoves(g: Grid, p: Position): (r: seq<Position>)
    requires IsGrid(g)
    ensures AwayFrom(r, p)
  {
    Rays(g, p, Diagonal)
  }

  /** A slide along one of `ds` reaches `x`. */
  ghost predicate SlidesTo(g: Grid, p: Position, ds: seq<Direction>, x: Position)
    requires IsGrid(g)
  {
    exists i :: 0 <= i < |ds| && SlideTarget(g, p, ds[i], x)
  }

  lemma {:induction false} RaysAreSlides(g: Grid, p: Position, ds: seq<Direction>)
    requires IsGrid(g) && InBounds(p) && forall i :: 0 <= i < |ds| ==> IsDirection(ds[i])
    ensures forall x :: x in Rays(g, p, ds) <==> SlidesTo(g, p, ds, x)
  {
    if |ds| > 0 {
      RayIsSlide(g, p, ds[0]);
      RaysAreSlides(g, p, ds[1..]);
      forall x ensures x in Rays(g, p, ds) <==> SlidesTo(g, p, ds, x) {
        if SlidesTo(g, p, ds, x) {
          var i :| 0 <= i < |ds| && SlideTarget(g, p, ds[i], x);
          if i > 0 {
            assert ds[1..][i - 1] == ds[i];
          }
        }
        if SlidesTo(g, p, ds[1..], x) {
          var i :| 0 <= i < |ds[1..]| && SlideTarget(g, p, ds[1..][i], x);
          assert ds[1..][i] == ds[i + 1];
        }
      }
    }
  }

  /** Reference meaning of a knight move: a jump with |dr| + |dc| = 3 and
      neither offset above 2, onto an empty on-board square. */
  predicate KnightJump(p: Position, x: Position) {
    Abs(x.row - p.row) <= 2 && Abs(x.col - p.col) <= 2 &&
    Abs(x.row - p.row) + Abs(x.col - p.col) == 3
  }

  /** The inner loop over column offsets `j..2` for row offset `i`. */
  function KnightCols(g: Grid, p: Position, i: int, j: int): (r: seq<Position>)
    requires IsGrid(g) && -2 <= i <= 2 && -2 <= j <= 3
    ensures forall x :: x in r <==>
      x.row - p.row == i && j <= x.col - p.col <= 2 &&
      Abs(i) + Abs(x.col - p.col) == 3 && Vacant(g, x)
    decreases 3 - j
  {
    if j > 2 then []
    else
      var q := Position(p.row + i, p.col + j);
      (if Abs(i) + Abs(j) == 3 && Vacant(g, q) then [q] else []) + KnightCols(g, p, i, j + 1)
  }

  /** The outer loop over row offsets `i..2`. */
  function KnightRows(g: Grid, p: Position, i: int): (r: seq<Position>)
    requires IsGrid(g) && -2 <= i <= 3
    ensures forall x :: x in r <==>
      i <= x.row - p.row <= 2 && -2 <= x.col - p.col <= 2 &&
      Abs(x.row - p.row) + Abs(x.col - p.col) == 3 && Vacant(g, x)
    decreases 3 - i
  {
    if i > 2 then [] else KnightCols(g, p, i, -2) + KnightRows(g, p, i + 1)
  }

  function KnightMoves(g: Grid, p: Position): (r: seq<Position>)
    requires IsGrid(g)
    ensures forall x :: x in r <==> KnightJump(p, x) && Vacant(g, x)
  {
    KnightRows(g, p, -2)
  }

  /** Reference meaning of a king move: an on-board neighbour, occupied
      or not. */
  predicate KingStep(p: Position, x: Position) {
    InBounds(x) && x != p && Abs(x.row - p.row) <= 1 && Abs(x.col - p.col) <= 1
  }

  function KingMoves(p: Position): (r: seq<Position>)
    requires InBounds(p)
    ensures forall x :: x in r <==> KingStep(p, x)
  {
    var row := p.row;
    var col := p.col;
    (if row + 1 <= 7 then [Position(row + 1, col)] else []) +
    (if row - 1 >= 0 then [Position(row - 1, col)] else []) +
    (if col + 1 <= 7 then [Position(row, col + 1)] else []) +
    (if col - 1 >= 0 then [Position(row, col - 1)] else []) +
    (if row + 1 <= 7 && col + 1 <= 7 then [Position(row + 1, col + 1)] else []) +
    (if row + 1 <= 7 && col - 1 >= 0 then [Position(row + 1, col - 1)] else []) +
    (if row - 1 >= 0 && col + 1 <= 7 then [Position(row - 1, col + 1)] else []) +
    (if row - 1 >= 0 && col - 1 >= 0 then [Position(row - 1, col - 1)] else [])
  }

  /* ---------------------------------------------------------------- */
  /* Dispatch                                                          */
  /* ---------------------------------------------------------------- */

  /** Reference meaning of `correct_moves`, kind by kind. A queen takes
      only the rook's targets and an unrecognised name reaches nothing. */
  ghost predicate Reaches(piece: Piece, g: Grid, x: Position)
    requires IsGrid(g)
  {
    var p := piece.position;
    match piece.name
    case Pawn => PawnTarget(g, piece.color, p, x)
    case Rook => SlidesTo(g, p, Orthogonal, x)
    case Queen => SlidesTo(g, p, Orthogonal, x)
    case Knight => KnightJump(p, x) && Vacant(g, x)
    case Bishop => SlidesTo(g, p, Diagonal, x)
    case King => KingStep(p, x)
    case Other(_) => false
  }

  /** Squares on the board other than `p`. */
  predicate AwayFrom(r: seq<Position>, p: Position) {
    forall i :: 0 <= i < |r| ==> InBounds(r[i]) && r[i] != p
  }

  /** `Piece.correct_moves`. The first four branches form an if/elif
      chain, so the later `bishop or queen` test never sees a queen; the
      king branch is a separate `if`. `prev` is accepted and never read. */
  function CorrectMoves(piece: Piece, g: Grid, prev: Grid): (r: seq<Position>)
    requires IsGrid(g) && InBounds(piece.position)
    ensures AwayFrom(r, piece.position)
  {
    var p := piece.position;
    var name := piece.name;
    ElifChain(piece, g) + (if name == King then KingMoves(p) else [])
  }

  /** `Piece.correct_captures` is unfinished: for every piece and both
      grids it fails with NotImplementedError and yields no squares. */
  function CorrectCaptures(piece: Piece, g: Grid, prev: Grid): (r: Result<seq<Position>>)
    ensures r.Err? && r.error == NotImplementedError
  {
    Err(NotImplementedError)
  }

  /** The if/elif part of `correct_moves`: it only ever returns empty
      squares. */
  function ElifChain(piece: Piece, g: Grid): (r: seq<Position>)
    requires IsGrid(g) && InBounds(piece.position)
    ensures forall i :: 0 <= i < |r| ==> Vacant(g, r[i]) && r[i] != piece.position
  {
    var p := piece.position;
    var name := piece.name;
    if name == Pawn then PawnMoves(g, piece.color, p)
    else if name == Rook || name == Queen then RookMoves(g, p)
    else if name == Knight then KnightMoves(g, p)
    else if name == Bishop || name == Queen then BishopMoves(g, p)
    else []
  }

  /** Every square `correct_moves` returns is one the piece's movement
      rule reaches, and every such square is returned. */
  lemma CorrectMovesMeaning(piece: Piece, g: Grid, prev: Grid)
    requires IsGrid(g) && InBounds(piece.position)
    ensures forall x :: x in CorrectMoves(piece, g, prev) <==> Reaches(piece, g, x)
  {
    var p := piece.position;
    match piece.name
    case Pawn => PawnMeaning(piece, g, prev);
    case Rook => SlideMeaning(piece, g, prev, Orthogonal);
    case Queen => SlideMeaning(piece, g, prev, Orthogonal);
    case Knight => KnightMeaning(piece, g, prev);
    case Bishop => SlideMeaning(piece, g, prev, Diagonal);
    case King => KingMeaning(piece, g, prev);
    case Other(_) => assert CorrectMoves(piece, g, prev) == [];
  }

  /** Apart from the king, `correct_moves` is the if/elif chain alone. */
  lemma NotKingChain(piece: Piece, g: Grid, prev: Grid)
    requires IsGrid(g) && InBounds(piece.position) && piece.name != King
    ensures CorrectMoves(piece, g, prev) == ElifChain(piece, g)
  {
    assert CorrectMoves(piece, g, prev) == ElifChain(piece, g) + [];
  }

  lemma PawnMeaning(piece: Piece, g: Grid, prev: Grid)
    requires IsGrid(g) && InBounds(piece.position) && piece.name == Pawn
    ensures forall x :: x in CorrectMoves(piece, g, prev) <==> PawnTarget(g, piece.color, piece.position, x)
  {
    assert CorrectMoves(piece, g, prev) == PawnMoves(g, piece.color, piece.position) + [];
  }

  /** Rooks and queens slide along ranks and files, bishops along
      diagonals. */
  lemma SlideMeaning(piece: Piece, g: Grid, prev: Grid, ds: seq<Direction>)
    requires IsGrid(g) && InBounds(piece.position)
    requires (piece.name in {Rook, Queen} && ds == Orthogonal) || (piece.name == Bishop && ds == Diagonal)
    ensures forall x :: x in CorrectMoves(piece, g, prev) <==> SlidesTo(g, piece.position, ds, x)
  {
    SlideChain(piece, g, ds);
    NotKingChain(piece, g, prev);
    RaysAreSlides(g, piece.position, ds);
  }

  lemma SlideChain(piece: Piece, g: Grid, ds: seq<Direction>)
    requires IsGrid(g) && InBounds(piece.position)
    requires (piece.name in {Rook, Queen} && ds == Orthogonal) || (piece.name == Bishop && ds == Diagonal)
    ensures ElifChain(piece, g) == Rays(g, piece.position, ds)
  {
    if piece.name == Bishop {
      BishopChain(piece, g);
    } else {
      RookChain(piece, g);
    }
  }

  lemma RookChain(piece: Piece, g: Grid)
    requires IsGrid(g) && InBounds(piece.position) && (piece.name == Rook || piece.name == Queen)
    ensures ElifChain(piece, g) == RookMoves(g, piece.position)
  {
  }

  lemma BishopChain(piece: Piece, g: Grid)
    requires IsGrid(g) && InBounds(piece.position) && piece.name == Bishop
    ensures ElifChain(piece, g) == BishopMoves(g, piece.position)
  {
  }

  lemma KnightMeaning(piece: Piece, g: Grid, prev: Grid)
    requires IsGrid(g) && InBounds(piece.position) && piece.name == Knight
    ensures CorrectMoves(piece, g, prev) == KnightMoves(g, piece.position)
  {
    KnightChain(piece, g);
    NotKingChain(piece, g, prev);
  }

  lemma KnightChain(piece: Piece, g: Grid)
    requires IsGrid(g) && InBounds(piece.position) && piece.name == Knight
    ensures ElifChain(piece, g) == KnightMoves(g, piece.position)
  {
  }

  lemma KingMeaning(piece: Piece, g: Grid, prev: Grid)
    requires IsGrid(g) && InBounds(piece.position) && piece.name == King
    ensures forall x :: x in CorrectMoves(piece, g, prev) <==> KingStep(piece.position, x)
  {
    assert CorrectMoves(piece, g, prev) == [] + KingMoves(piece.position);
  }

  /** Because the bishop test is an `elif` behind the `rook or queen`
      test, a queen moves exactly like a rook on the same square. */
  lemma QueenMovesLikeRook(piece: Piece, g: Grid, prev: Grid)
    requires IsGrid(g) && InBounds(piece.position) && piece.name == Queen
    ensures CorrectMoves(piece, g, prev) == CorrectMoves(piece.(name := Rook), g, prev)
  {
  }

  /** Squares along rank and file directions share the start's row or
      column. */
  lemma {:induction false} RaysOnLines(g: Grid, p: Position, ds: seq<Direction>)
    requires IsGrid(g) && forall i :: 0 <= i < |ds| ==> IsDirection(ds[i])
    requires forall i :: 0 <= i < |ds| ==> ds[i].dr == 0 || ds[i].dc == 0
    ensures forall t :: 0 <= t < |Rays(g, p, ds)| ==>
      Rays(g, p, ds)[t].row == p.row || Rays(g, p, ds)[t].col == p.col
  {
    if |ds| > 0 {
      RaysOnLines(g, p, ds[1..]);
      var a := Ray(g, p, ds[0], 1);
      var b := Rays(g, p, ds[1..]);
      var ab: seq<Position> := a + b;
      forall t | 0 <= t < |ab| ensures ab[t].row == p.row || ab[t].col == p.col {
        if t < |a| {
          assert ab[t] == Offset(p, ds[0], 1 + t);
          OffsetOnLine(p, ds[0], 1 + t);
        } else {
          assert ab[t] == b[t - |a|];
        }
      }
    }
  }

  lemma OffsetOnLine(p: Position, d: Direction, k: int)
    requires d.dr == 0 || d.dc == 0
    ensures Offset(p, d, k).row == p.row || Offset(p, d, k).col == p.col
  {
  }

  /** `x` shares a diagonal with `p`. */
  predicate OnDiagonal(p: Position, x: Position) {
    Abs(x.row - p.row) == Abs(x.col - p.col)
  }

  lemma OffsetOnDiagonal(p: Position, d: Direction, k: int)
    requires IsDirection(d) && d.dr != 0 && d.dc != 0 && k >= 0
    ensures OnDiagonal(p, Offset(p, d, k))
  {
  }

  lemma RayOnDiagonal(g: Grid, p: Position, d: Direction)
    requires IsGrid(g) && IsDirection(d) && d.dr != 0 && d.dc != 0
    ensures forall t :: 0 <= t < |Ray(g, p, d, 1)| ==>
      OnDiagonal(p, Ray(g, p, d, 1)[t])
  {
    var a := Ray(g, p, d, 1);
    forall t | 0 <= t < |a| ensures OnDiagonal(p, a[t]) {
      OffsetOnDiagonal(p, d, 1 + t);
    }
  }

  /** Squares along diagonal directions lie on the start's diagonals. */
  lemma {:induction false} RaysOnDiagonals(g: Grid, p: Position, ds: seq<Direction>)
    requires IsGrid(g) && forall i :: 0 <= i < |ds| ==> IsDirection(ds[i])
    requires forall i :: 0 <= i < |ds| ==> ds[i].dr != 0 && ds[i].dc != 0
    ensures forall t :: 0 <= t < |Rays(g, p, ds)| ==>
      OnDiagonal(p, Rays(g, p, ds)[t])
  {
    if |ds| > 0 {
      RaysOnDiagonals(g, p, ds[1..]);
      var a := Ray(g, p, ds[0], 1);
      var b := Rays(g, p, ds[1..]);
      var ab: seq<Position> := a + b;
      forall t | 0 <= t < |ab| ensures OnDiagonal(p, ab[t]) {
        if t < |a| {
          RayOnDiagonal(g, p, ds[0]);
          assert ab[t] == a[t];
        } else {
          assert ab[t] == b[t - |a|];
        }
      }
    }
  }

  /** In particular a queen never gets a diagonal square. */
  lemma QueenStaysOrthogonal(piece: Piece, g: Grid, prev: Grid)
    requires IsGrid(g) && InBounds(piece.position) && piece.name == Queen
    ensures forall x :: x in CorrectMoves(piece, g, prev) ==>
      x.row == piece.position.row || x.col == piece.position.col
  {
    NotKingChain(piece, g, prev);
    RookChain(piece, g);
    RaysOnLines(g, piece.position, Orthogonal);
  }

  /** A bishop's squares all lie on its diagonals. */
  lemma BishopStaysDiagonal(piece: Piece, g: Grid, prev: Grid)
    requires IsGrid(g) && InBounds(piece.position) && piece.name == Bishop
    ensures forall x :: x in CorrectMoves(piece, g, prev) ==>
      Abs(x.row - piece.position.row) == Abs(x.col - piece.position.col)
  {
    NotKingChain(piece, g, prev);
    BishopChain(piece, g);
    RaysOnDiagonals(g, piece.position, Diagonal);
  }

  /** A name outside the six falls through every branch. */
  lemma UnknownNameHasNoMoves(piece: Piece, g: Grid, prev: Grid)
    requires IsGrid(g) && InBounds(piece.position) && piece.name.Other?
    ensures CorrectMoves(piece, g, prev) == []
  {
  }

  /** Only empty squares are returned, except by the king, whose branch
      never looks at the grid. */
  lemma NoCaptures(piece: Piece, g: Grid, prev: Grid)
    requires IsGrid(g) && InBounds(piece.position) && piece.name != King
    ensures forall x :: x in CorrectMoves(piece, g, prev) ==> Vacant(g, x)
  {
  }

  /** The king's squares do not depend on the grid at all. */
  lemma KingIgnoresOccupancy(piece: Piece, g1: Grid, g2: Grid, prev1: Grid, prev2: Grid)
    requires IsGrid(g1) && IsGrid(g2) && InBounds(piece.position) && piece.name == King
    ensures CorrectMoves(piece, g1, prev1) == CorrectMoves(piece, g2, prev2)
  {
  }

  /** The previous-turn grid never influences the result. */
  lemma PreviousGridUnread(piece: Piece, g: Grid, prev1: Grid, prev2: Grid)
    requires IsGrid(g) && InBounds(piece.position)
    ensures CorrectMoves(piece, g, prev1) == CorrectMoves(piece, g, prev2)
  {
  }

  /** Number of on-board coordinates within one step of `x`, `x` included. */
  function Span(x: int): nat {
    if x == 0 || x == 7 then 2 else 3
  }

  /** The king gets every on-board neighbour exactly once: 8 in the
      middle, 5 on an edge, 3 in a corner, occupied or not. */
  lemma KingMoveCount(piece: Piece, g: Grid, prev: Grid)
    requires IsGrid(g) && InBounds(piece.position) && piece.name == King
    ensures |CorrectMoves(piece, g, prev)| == Span(piece.position.row) * Span(piece.position.col) - 1
  {
    KingMovesLength(piece.position);
  }

  lemma KingMovesLength(p: Position)
    requires InBounds(p)
    ensures |KingMoves(p)| == Span(p.row) * Span(p.col) - 1
  {
    var up := if p.row + 1 <= 7 then 1 else 0;
    var down := if p.row - 1 >= 0 then 1 else 0;
    var right := if p.col + 1 <= 7 then 1 else 0;
    var left := if p.col - 1 >= 0 then 1 else 0;
    assert |KingMoves(p)| == up + down + right + left + up * right + up * left + down * right + down * left;
    assert Span(p.row) == 1 + up + down;
    assert Span(p.col) == 1 + right + left;
  }

  /** Row offset `i` contributes two jump squares on an empty grid when
      the knight stands two squares from every edge, except `i = 0`. */
  lemma KnightColsOnEmpty(p: Position, i: int)
    requires 2 <= p.row <= 5 && 2 <= p.col <= 5 && -2 <= i <= 2
    ensures |KnightCols(EmptyGrid(), p, i, -2)| == if i == 0 then 0 else 2
  {
    KnightColStep(p, i, 2);
    KnightColStep(p, i, 1);
    KnightColStep(p, i, 0);
    KnightColStep(p, i, -1);
    KnightColStep(p, i, -2);
  }

  /** On an empty grid, column offset `j` contributes a square exactly
      when `|i| + |j| = 3`, the target being on the board. */
  lemma KnightColStep(p: Position, i: int, j: int)
    requires 2 <= p.row <= 5 && 2 <= p.col <= 5 && -2 <= i <= 2 && -2 <= j <= 2
    ensures |KnightCols(EmptyGrid(), p, i, j)| ==
      (if Abs(i) + Abs(j) == 3 then 1 else 0) + |KnightCols(EmptyGrid(), p, i, j + 1)|
  {
    assert Vacant(EmptyGrid(), Position(p.row + i, p.col + j));
  }

  /** On an empty grid a knight at least two squares from every edge
      reaches all 8 of its jump squares. */
  lemma KnightInteriorCount(piece: Piece, prev: Grid)
    requires 2 <= piece.position.row <= 5 && 2 <= piece.position.col <= 5
    requires piece.name == Knight
    ensures |CorrectMoves(piece, EmptyGrid(), prev)| == 8
  {
    KnightMeaning(piece, EmptyGrid(), prev);
    KnightRowsOnEmpty(piece.position);
  }

  lemma KnightRowsOnEmpty(p: Position)
    requires 2 <= p.row <= 5 && 2 <= p.col <= 5
    ensures |KnightMoves(EmptyGrid(), p)| == 8
  {
    var g := EmptyGrid();
    KnightColsOnEmpty(p, -2);
    KnightColsOnEmpty(p, -1);
    KnightColsOnEmpty(p, 0);
    KnightColsOnEmpty(p, 1);
    KnightColsOnEmpty(p, 2);
    assert |KnightRows(g, p, 3)| == 0;
    assert |KnightRows(g, p, 2)| == 2;
    assert |KnightRows(g, p, 1)| == 4;
    assert |KnightRows(g, p, 0)| == 4;
    assert |KnightRows(g, p, -1)| == 6;
    assert |KnightRows(g, p, -2)| == 8;
  }

  /** The double step of a pawn on its start rank does not look at the
      square it passes over. */
  lemma PawnDoubleStepSkipsMiddle(piece: Piece, g: Grid, prev: Grid)
    requires IsGrid(g) && InBounds(piece.position) && piece.name == Pawn
    requires piece.position.row == Tables.PawnRow(piece.color)
    requires At(g, Position(piece.position.row + Forward(piece.color), piece.position.col)).Some?
    requires At(g, Position(piece.position.row + 2 * Forward(piece.color), piece.position.col)).None?
    ensures CorrectMoves(piece, g, prev) ==
      [Position(piece.position.row + 2 * Forward(piece.color), piece.position.col)]
  {
  }
}

=== FILE: opening.dfy ===
/** The standard opening, read two ways: the board `new_board` builds and
    the board `from_FEN` reads from the standard placement field hold the
    same grid. Both are compared with an independent square-by-square
    description of the opening. */
module Opening {
  import opened ChessTypes
  import Tables
  import Boards
  import Fen

  /* ---------------------------------------------------------------- */
  /* The opening, square by square                                     */
  /* ---------------------------------------------------------------- */

  /** The kind standing on a home-rank column. */
  function HomeName(col: int): (n: Name)
    ensures !n.Other? && n != Pawn
  {
    if col == 0 || col == 7 then Rook
    else if col == 1 || col == 6 then Knight
    else if col == 2 || col == 5 then Bishop
    else if col == 3 then Queen
    else King
  }

  /** What stands on square `q` at the start of a game: White's home rank
      on row 0 and pawns on row 1, Black's pawns on row 6 and home rank on
      row 7, every piece valued by the table and with its first move
      pending. */
  function OpeningAt(q: Position): Option<Piece> {
    if q.row == 0 || q.row == 7 then
      var n := HomeName(q.col);
      Some(Piece(if q.row == 0 then White else Black, n, Tables.GetValue(n).value, q, true))
    else if q.row == 1 || q.row == 6 then
      Some(Piece(if q.row == 1 then White else Black, Pawn, Tables.GetValue(Pawn).value, q, true))
    else None
  }

  /** Two grids that agree on every square are equal. */
  lemma GridsEqual(g: Grid, h: Grid)
    requires IsGrid(g) && IsGrid(h)
    requires forall q :: InBounds(q) ==> At(g, q) == At(h, q)
    ensures g == h
  {
    forall r | 0 <= r < 8 ensures g[r] == h[r] {
      forall c | 0 <= c < 8 ensures g[r][c] == h[r][c] {
        assert At(g, Position(r, c)) == At(h, Position(r, c));
      }
    }
  }

  /* ---------------------------------------------------------------- */
  /* The side of `new_board`                                           */
  /* ---------------------------------------------------------------- */

  /** Each start square of each listed pair yields its piece. */
  lemma {:induction false} PiecesForHas(pairs: seq<(Name, Color)>, k: int, t: int)
    requires forall m :: 0 <= m < |pairs| ==> !pairs[m].0.Other?
    requires 0 <= k < |pairs| && 0 <= t < |Tables.StartColumns(pairs[k].0)|
    ensures Boards.PiecesFor(pairs).Ok?
    ensures var (n, c) := pairs[k];
      Piece(c, n, Tables.GetValue(n).value, Position(Boards.StartRow(n, c), Tables.StartColumns(n)[t]), true)
        in Boards.PiecesFor(pairs).value
  {
    Boards.PiecesForCount(pairs);
    Boards.PiecesForCons(pairs);
    var b := Boards.PairPieces(pairs[0].0, pairs[0].1).value;
    var rest := Boards.PiecesFor(pairs[1..]).value;
    if k == 0 {
      Boards.PairPiecesShape(pairs[0].0, pairs[0].1);
      assert (b + rest)[t] == b[t];
    } else {
      PiecesForHas(pairs[1..], k - 1, t);
      assert pairs[1..][k - 1] == pairs[k];
      assert forall p :: p in rest ==> p in b + rest;
    }
  }

  /** The position in `SidePairs(c)` of a recognised kind. */
  function SideIndex(n: Name, c: Color): (k: int)
    requires !n.Other?
    ensures 0 <= k < 6 && Boards.SidePairs(c)[k] == (n, c)
  {
    match n
    case Rook => 0
    case Bishop => 1
    case Pawn => 2
    case King => 3
    case Queen => 4
    case Knight => 5
  }

  /** An occupied opening square comes from the pair of its kind and
      colour, at the right start column. */
  lemma OpeningFromPair(q: Position)
    requires InBounds(q) && OpeningAt(q).Some?
    ensures var p := OpeningAt(q).value;
      var t := if p.name == Pawn then q.col else if q.col < 5 then 0 else 1;
      && !p.name.Other?
      && 0 <= t < |Tables.StartColumns(p.name)|
      && q == Position(Boards.StartRow(p.name, p.color), Tables.StartColumns(p.name)[t])
  {
  }

  /** Every occupied opening square is among the pieces of its side. */
  lemma SideHas(q: Position)
    requires InBounds(q) && OpeningAt(q).Some?
    ensures var p := OpeningAt(q).value;
      Boards.PiecesFor(Boards.SidePairs(p.color)).Ok? && p in Boards.PiecesFor(Boards.SidePairs(p.color)).value
  {
    var p := OpeningAt(q).value;
    OpeningFromPair(q);
    var t := if p.name == Pawn then q.col else if q.col < 5 then 0 else 1;
    Boards.SideKnown(p.color);
    PiecesForHas(Boards.SidePairs(p.color), SideIndex(p.name, p.color), t);
  }

  /** Every occupied opening square is among `new_board`'s pieces. */
  lemma NewBoardHas(q: Position)
    requires InBounds(q) && OpeningAt(q).Some?
    ensures Boards.NewBoard().Ok?
    ensures OpeningAt(q).value in Boards.NewBoard().value
  {
    Boards.SideLayout(White);
    Boards.SideLayout(Black);
    var w := Boards.PiecesFor(Boards.SidePairs(White)).value;
    var b := Boards.PiecesFor(Boards.SidePairs(Black)).value;
    Boards.PiecesForAppend(Boards.SidePairs(White), Boards.SidePairs(Black));
    assert Boards.NewBoard() == Ok(w + b);
    SideHas(q);
    assert forall p :: p in w || p in b ==> p in w + b;
  }

  /** No setup piece stands on an empty opening square. */
  lemma SetupOffMiddle(ps: seq<Piece>, q: Position)
    requires |ps| == 32
    requires forall i :: 0 <= i < 16 ==> Boards.SetupPiece(ps[i], White)
    requires forall i :: 16 <= i < 32 ==> Boards.SetupPiece(ps[i], Black)
    requires InBounds(q) && OpeningAt(q).None?
    ensures forall i :: 0 <= i < |ps| ==> ps[i].position != q
  {
    forall i | 0 <= i < |ps| ensures ps[i].position != q {
      if i < 16 {
        assert Boards.SetupPiece(ps[i], White);
      } else {
        assert Boards.SetupPiece(ps[i], Black);
      }
    }
  }

  /** No opening piece stands on rows 2 to 5. */
  lemma NewBoardMiddleEmpty(q: Position)
    requires InBounds(q) && OpeningAt(q).None?
    ensures Boards.NewBoard().Ok?
    ensures forall i :: 0 <= i < |Boards.NewBoard().value| ==> Boards.NewBoard().value[i].position != q
  {
    Boards.NewBoardLayout();
    SetupOffMiddle(Boards.NewBoard().value, q);
  }

  /** The grid of pieces on distinct squares holds the opening on `q`
      when the opening piece of `q` is among them, or, for an empty
      opening square, none of them stands there. */
  lemma GridShowsOpening(ps: seq<Piece>, q: Position)
    requires Boards.InRange(ps) && Boards.DistinctSquares(ps) && InBounds(q)
    requires OpeningAt(q).Some? ==> OpeningAt(q).value in ps
    requires OpeningAt(q).None? ==> forall i :: 0 <= i < |ps| ==> ps[i].position != q
    ensures At(Boards.PieceArr(ps), q) == OpeningAt(q)
  {
    if OpeningAt(q).Some? {
      Boards.PieceArrShowsEach(ps);
    } else {
      Boards.PieceArrIndex(ps);
    }
  }

  /** `new_board`'s grid holds the opening on every square. */
  lemma NewBoardSquare(q: Position)
    requires InBounds(q)
    ensures Boards.NewBoard().Ok?
    ensures Boards.InRange(Boards.NewBoard().value)
    ensures At(Boards.PieceArr(Boards.NewBoard().value), q) == OpeningAt(q)
  {
    Boards.NewBoardLayout();
    if OpeningAt(q).Some? {
      NewBoardHas(q);
    } else {
      NewBoardMiddleEmpty(q);
    }
    GridShowsOpening(Boards.NewBoard().value, q);
  }

  /* ---------------------------------------------------------------- */
  /* The side of `from_FEN`                                            */
  /* ---------------------------------------------------------------- */

  /** The placement field of the standard opening. */
  const StandardFen: string := "rnbqkbnr/pppppppp/8/8/8/8/PPPPPPPP/RNBQKBNR"

  /** Its ranks, from Black's home rank down to White's, in two halves. */
  const BlackRanks: seq<string> := ["rnbqkbnr", "pppppppp", "8", "8"]
  const WhiteRanks: seq<string> := ["8", "8", "PPPPPPPP", "RNBQKBNR"]
  const StandardRanks: seq<string> := BlackRanks + WhiteRanks

  /** Joining two lists is joining each and putting a separator between. */
  lemma {:induction false} JoinAppend(a: seq<string>, b: seq<string>, sep: char)
    requires |a| >= 1 && |b| >= 1
    ensures Fen.Join(a + b, sep) == Fen.Join(a, sep) + [sep] + Fen.Join(b, sep)
  {
    if |a| > 1 {
      JoinAppend(a[1..], b, sep);
      assert (a + b)[1..] == a[1..] + b;
    } else {
      assert (a + b)[1..] == b;
    }
  }

  lemma BlackJoin()
    ensures Fen.Join(BlackRanks, '/') == "rnbqkbnr/pppppppp/8/8"
  {
  }

  lemma WhiteJoin()
    ensures Fen.Join(WhiteRanks, '/') == "8/8/PPPPPPPP/RNBQKBNR"
  {
  }

  lemma HalvesJoin()
    ensures "rnbqkbnr/pppppppp/8/8" + "/" + "8/8/PPPPPPPP/RNBQKBNR" == StandardFen
  {
  }

  /** Joining the standard ranks with `/` spells the standard placement. */
  lemma StandardJoin()
    ensures Fen.Join(StandardRanks, '/') == StandardFen
  {
    BlackJoin();
    WhiteJoin();
    HalvesJoin();
    JoinAppend(BlackRanks, WhiteRanks, '/');
  }

  /** Splitting the standard placement on `/` gives its eight ranks. */
  lemma StandardSplit()
    ensures Fen.Split(StandardFen, '/') == StandardRanks
  {
    StandardJoin();
    Fen.SplitJoin(StandardRanks, '/');
  }

  /** A text without digits expands to one symbol cell per character. */
  lemma {:induction false} ExpandLetters(s: string)
    requires forall k :: 0 <= k < |s| ==> !Fen.IsDigit(s[k])
    ensures |Fen.ExpandRank(s)| == |s|
    ensures forall k :: 0 <= k < |s| ==> Fen.ExpandRank(s)[k] == Fen.Sym(s[k])
  {
    if |s| > 0 {
      ExpandLetters(s[1..]);
      assert Fen.ExpandRank(s) == [Fen.Sym(s[0])] + Fen.ExpandRank(s[1..]);
    }
  }

  lemma EightExpands()
    ensures Fen.ExpandRank("8") == Fen.Blanks(8)
  {
    assert Fen.ExpandRank("8") == Fen.Blanks(8) + Fen.ExpandRank("");
  }

  /** The expanded cell of rank `i`, column `j` of the standard placement. */
  function StandardCell(i: int, j: int): Fen.Cell
    requires 0 <= i < 8 && 0 <= j < 8
  {
    if 2 <= i <= 5 then Fen.Blank else Fen.Sym(StandardRanks[i][j])
  }

  /** Each of the four outer ranks is eight letters. */
  lemma LetterRank(i: int)
    requires 0 <= i < 8 && !(2 <= i <= 5)
    ensures |StandardRanks[i]| == 8
    ensures forall k :: 0 <= k < 8 ==> !Fen.IsDigit(StandardRanks[i][k])
  {
  }

  /** Rank `i` of a placement with the standard ranks expands to the
      cells of `StandardCell`. */
  lemma StandardRank(s: string, i: int)
    requires Fen.Split(s, '/') == StandardRanks && 0 <= i < 8
    ensures |Fen.Expanded(s)| == 8
    ensures |Fen.Expanded(s)[i]| == 8
    ensures forall j :: 0 <= j < 8 ==> Fen.Expanded(s)[i][j] == StandardCell(i, j)
  {
    var r := StandardRanks[i];
    assert Fen.Expanded(s)[i] == Fen.ExpandRank(r);
    if 2 <= i <= 5 {
      assert r == "8";
      EightExpands();
    } else {
      LetterRank(i);
      ExpandLetters(r);
    }
  }

  /** A placement with the standard ranks expands to eight ranks of eight
      cells: letters on the outer ranks, blanks on the four in the
      middle. */
  lemma StandardExpanded(s: string)
    requires Fen.Split(s, '/') == StandardRanks
    ensures Fen.WellShaped(Fen.Expanded(s))
    ensures forall i, j :: 0 <= i < 8 && 0 <= j < 8 ==> Fen.Expanded(s)[i][j] == StandardCell(i, j)
  {
    forall i | 0 <= i < 8
      ensures |Fen.Expanded(s)| == 8 && |Fen.Expanded(s)[i]| == 8
      ensures forall j :: 0 <= j < 8 ==> Fen.Expanded(s)[i][j] == StandardCell(i, j)
    {
      StandardRank(s, i);
    }
  }

  /** The symbol of each outer-rank cell is the opening piece of its
      square. */
  lemma StandardSymbol(i: int, j: int)
    requires 0 <= i < 8 && 0 <= j < 8 && !(2 <= i <= 5)
    ensures Fen.FenPiece(StandardRanks[i][j]).Some?
    ensures Some(Fen.SymbolPiece(StandardRanks[i][j], i, j)) == OpeningAt(Position(7 - i, j))
  {
    if i == 0 {
      assert StandardRanks[0] == "rnbqkbnr";
    } else if i == 1 {
      assert StandardRanks[1] == "pppppppp";
    } else if i == 6 {
      assert StandardRanks[6] == "PPPPPPPP";
    } else {
      assert StandardRanks[7] == "RNBQKBNR";
    }
  }

  /** Reading a placement with the standard ranks succeeds. */
  lemma StandardParses(s: string)
    requires Fen.Split(s, '/') == StandardRanks
    ensures Fen.FromFen(s).Ok?
  {
    var x := Fen.Expanded(s);
    StandardExpanded(s);
    forall i, j | 0 <= i < 8 && 0 <= j < 8 ensures Fen.KnownCell(x[i][j]) {
      if !(2 <= i <= 5) {
        StandardSymbol(i, j);
      }
    }
    Fen.FromFenSucceeds(s);
  }

  /** One square of a parsed placement: empty for a blank cell, the
      cell's piece for a symbol. */
  lemma ParsedSquare(x: seq<seq<Fen.Cell>>, ps: seq<Piece>, i: int, j: int)
    requires Fen.BoardRows(x, 0) == Ok(ps) && 0 <= i < 8 && 0 <= j < 8
    ensures Boards.InRange(ps)
    ensures x[i][j].Blank? ==> At(Boards.PieceArr(ps), Position(7 - i, j)) == None
    ensures x[i][j].Sym? ==> Fen.FenPiece(x[i][j].ch).Some?
    ensures x[i][j].Sym? ==>
      At(Boards.PieceArr(ps), Position(7 - i, j)) == Some(Fen.SymbolPiece(x[i][j].ch, i, j))
  {
    assert Fen.ShapedFrom(x, 0) && Fen.KnownRank(x[i], 0);
    Fen.ParsedPiecesFit(x, ps);
    if x[i][j].Sym? {
      Fen.SymCellOccupied(x, ps, i, j);
      Fen.OccupiedShowsSymbol(x, ps, i, j);
    } else {
      Fen.BlankCellUnoccupied(x, ps, i, j);
      Fen.UnoccupiedEmpty(ps, Position(7 - i, j));
    }
  }

  /** Square `(7 - i, j)` of the grid of pieces read from a placement
      with the standard ranks holds the opening. */
  lemma StandardSquare(s: string, i: int, j: int)
    requires Fen.Split(s, '/') == StandardRanks && 0 <= i < 8 && 0 <= j < 8
    requires Fen.BoardRows(Fen.Expanded(s), 0).Ok?
    ensures Boards.InRange(Fen.BoardRows(Fen.Expanded(s), 0).value)
    ensures At(Boards.PieceArr(Fen.BoardRows(Fen.Expanded(s), 0).value), Position(7 - i, j))
         == OpeningAt(Position(7 - i, j))
  {
    var x := Fen.Expanded(s);
    StandardRank(s, i);
    ParsedSquare(x, Fen.BoardRows(x, 0).value, i, j);
    if !(2 <= i <= 5) {
      StandardSymbol(i, j);
    }
  }

  /** The grid read from a placement with the standard ranks holds the
      opening on every square. */
  lemma FenSquare(s: string, q: Position)
    requires Fen.Split(s, '/') == StandardRanks && InBounds(q)
    ensures Fen.FromFen(s).Ok?
    ensures At(Fen.FromFen(s).value.arr, q) == OpeningAt(q)
  {
    StandardParses(s);
    assert Fen.BoardRows(Fen.Expanded(s), 0).Ok?;
    StandardSquare(s, 7 - q.row, q.col);
    assert q == Position(7 - (7 - q.row), q.col);
  }

  /* ---------------------------------------------------------------- */
  /* Both together                                                     */
  /* ---------------------------------------------------------------- */

  /** `Board.from_FEN` on the standard placement and `Board()` give the
      same grid. The piece lists are not compared: `from_FEN` lists
      pieces rank by rank from Black's home rank, while `new_board` goes
      kind by kind. */
  lemma StandardOpening()
    ensures Fen.FromFen(StandardFen).Ok? && Boards.InitBoard(None).Ok?
    ensures Fen.FromFen(StandardFen).value.arr == Boards.InitBoard(None).value.arr
  {
    var g := Fen.FromFen(StandardFen);
    StandardSplit();
    StandardParses(StandardFen);
    Boards.NewBoardLayout();
    var b := Boards.InitBoard(None).value;
    forall q | InBounds(q) ensures At(g.value.arr, q) == At(b.arr, q) {
      FenSquare(StandardFen, q);
      NewBoardSquare(q);
    }
    GridsEqual(g.value.arr, b.arr);
  }
}

=== FILE: tables.dfy ===
/** The static lookups of `Piece`: material value by name and the
    squares a kind starts on in the opening layout. */
module Tables {
  import opened ChessTypes

  /** `Piece.get_value`: pawn 1, knight and bishop 3, rook 5, queen 9,
      king 0; any other name is a ValueError. */
  function GetValue(name: Name): (r: Result<int>)
    ensures r.Err? <==> name.Other?
    ensures r.Err? ==> r.error == ValueError("Invalid piece name")
    ensures r.Ok? ==> 0 <= r.value <= 9
    ensures r.Ok? ==> (r.value == 0 <==> name == King)
  {
    match name
    case Pawn => Ok(1)
    case Knight => Ok(3)
    case Bishop => Ok(3)
    case Rook => Ok(5)
    case Queen => Ok(9)
    case King => Ok(0)
    case Other(_) => Err(ValueError("Invalid piece name"))
  }

  /** The back rank and the pawn rank of each side. */
  function HomeRow(c: Color): int {
    if c == White then 0 else 7
  }

  function PawnRow(c: Color): int {
    if c == White then 1 else 6
  }

  /** The columns a kind occupies in the opening, in the order
      `chess.py` lists them. */
  function StartColumns(name: Name): (r: seq<int>)
    ensures forall i :: 0 <= i < |r| ==> 0 <= r[i] < 8
    ensures forall i, j :: 0 <= i < j < |r| ==> r[i] != r[j]
  {
    match name
    case Pawn => [0, 1, 2, 3, 4, 5, 6, 7]
    case Rook => [0, 7]
    case Knight => [1, 6]
    case Bishop => [2, 5]
    case Queen => [3]
    case King => [4]
    case Other(_) => []
  }

  /** Two different back-rank kinds start on disjoint columns. */
  lemma HomeColumnsDisjoint(n: Name, m: Name)
    requires n != m && !n.Other? && !m.Other? && n != Pawn && m != Pawn
    ensures forall col :: col in StartColumns(n) ==> col !in StartColumns(m)
  {
  }

  /** `Piece.get_start_position`. An unknown colour is a ValueError; an
      unknown name with a valid colour falls through and yields `None`. */
  function StartPositions(name: Name, color: RawColor): (r: Result<Option<seq<Position>>>)
    ensures r.Err? <==> color.Unknown?
    ensures r.Err? ==> r.error == ValueError("Invalid color")
    ensures r.Ok? ==> (r.value.None? <==> name.Other?)
    ensures r.Ok? && r.value.Some? ==>
      var ps := r.value.value;
      && |ps| == |StartColumns(name)|
      && forall i :: 0 <= i < |ps| ==>
          && InBounds(ps[i])
          && ps[i].row == (if name == Pawn then PawnRow(color.color) else HomeRow(color.color))
          && ps[i].col == StartColumns(name)[i]
  {
    match color
    case Unknown => Err(ValueError("Invalid color"))
    case Known(c) =>
      var home := HomeRow(c);
      if name == Pawn then Ok(Some(seq(8, i => Position(PawnRow(c), i))))
      else if name == Rook then Ok(Some([Position(home, 0), Position(home, 7)]))
      else if name == Knight then Ok(Some([Position(home, 1), Position(home, 6)]))
      else if name == Bishop then Ok(Some([Position(home, 2), Position(home, 5)]))
      else if name == Queen then Ok(Some([Position(home, 3)]))
      else if name == King then Ok(Some([Position(home, 4)]))
      else Ok(None)
  }

  /** Each side's start squares are mirror images: the black list is the
      white list with every row `r` replaced by `7 - r`. */
  lemma StartPositionsMirror(name: Name)
    ensures StartPositions(name, Known(White)).Ok?
    ensures StartPositions(name, Known(Black)).Ok?
    ensures var w := StartPositions(name, Known(White)).value;
            var b := StartPositions(name, Known(Black)).value;
            && (w.None? <==> b.None?)
            && (w.Some? ==>
                  && |w.value| == |b.value|
                  && forall i :: 0 <= i < |w.value| ==>
                       b.value[i] == Position(7 - w.value[i].row, w.value[i].col))
  {
  }
}

=== FILE: types.dfy ===
/** Value types shared by the chess core: sides, piece kinds, squares,
    pieces, the 8x8 occupancy grid and the failure-carrying Result. */
module ChessTypes {

  datatype Option<+T> = None | Some(value: T)

  /** The exception classes the core raises, by Python class name. */
  datatype Error =
    | ValueError(msg: string)
    | KeyError(key: string)
    | IndexError
    | TypeError
    | NotImplementedError

  datatype Result<+T> = Ok(value: T) | Err(error: Error) {
    predicate IsFailure() {
      Err?
    }

    function PropagateFailure<U>(): Result<U>
      requires Err?
    {
      Err(error)
    }

    function Extract(): T
      requires Ok?
    {
      value
    }
  }

  datatype Color = White | Black

  /** A colour argument as a caller may pass it: one of the two enum
      members, or some other value. */
  datatype RawColor = Known(color: Color) | Unknown

  /** The six piece names `chess.py` recognises, as it spells them. */
  const KnownTexts: set<string> := {"pawn", "rook", "knight", "bishop", "queen", "king"}

  /** Any other string `chess.py` may be handed as a piece name. */
  type UnknownText = s: string | s !in KnownTexts witness ""

  /** A piece name. `Other` carries a string that is not one of the six
      recognised names, so `Other("pawn")` cannot be formed. */
  datatype Name = Pawn | Rook | Knight | Bishop | Queen | King | Other(text: UnknownText)

  /** A square; construction does not validate the coordinates. */
  datatype Position = Position(row: int, col: int)

  datatype Move = Move(start: Position, end: Position)

  datatype Piece = Piece(color: Color, name: Name, value: int, position: Position, firstMove: bool)

  /** Row-major 8x8 occupancy, indexed `g[row][col]`. */
  type Grid = seq<seq<Option<Piece>>>

  predicate IsGrid(g: Grid) {
    |g| == 8 && forall r :: 0 <= r < 8 ==> |g[r]| == 8
  }

  predicate InBounds(q: Position) {
    0 <= q.row < 8 && 0 <= q.col < 8
  }

  function At(g: Grid, q: Position): Option<Piece>
    requires IsGrid(g) && InBounds(q)
  {
    g[q.row][q.col]
  }

  /** An on-board square holding no piece. */
  predicate Vacant(g: Grid, q: Position)
    requires IsGrid(g)
  {
    InBounds(q) && At(g, q).None?
  }

  function EmptyGrid(): (g: Grid)
    ensures IsGrid(g)
    ensures forall q :: InBounds(q) ==> At(g, q) == None
  {
    seq(8, r => seq(8, c => None))
  }

  /** `g` with square `q` set to `v`, every other square unchanged. */
  function Place(g: Grid, q: Position, v: Option<Piece>): (g': Grid)
    requires IsGrid(g) && InBounds(q)
    ensures IsGrid(g')
    ensures At(g', q) == v
    ensures forall q' :: InBounds(q') && q' != q ==> At(g', q') == At(g, q')
  {
    g[q.row := g[q.row][q.col := v]]
  }

  function Abs(x: int): nat {
    if x < 0 then -x else x
  }
}
